=== FILE: README.md ===
# histogramnd — N-dimensional histogram kernel, modelled in Dafny

This project models the N-dimensional histogram kernel of silx, whose interface is
declared in `silx/math/histogramnd/include/histogramnd_c.h`. One call takes:

- `i_n_elem` sample points of `i_n_dim` coordinates each, stored flat and row-major;
- an optional weight per sample;
- a `(min, max)` pair per dimension (`i_bin_ranges`) and a bin count per dimension (`i_n_bin`);
- the option bitset `histo_opt_type`, with the weight bounds `i_weight_min` and `i_weight_max`.

For every sample, in input order, the call does the following:

1. It finds the sample's uniform bin in every dimension.
2. It turns the per-dimension bins into one row-major flat offset. The last dimension varies fastest.
3. It adds 1 to `o_histo` at that offset. Whether a sample whose weight fails an active bound is still counted depends on `FilterPolicy` (below).
4. When a weight buffer is given and the weight passes the active bounds, it adds the weight to `o_cumul` at the same offset.

A sample with any coordinate out of range changes neither buffer. The buffers are only
ever added to, never reset.

Modules, one per component:

- `HistoFlags` (`flags.dfy`): the `histo_opt_type` enumerators as 32-bit patterns, with encode and decode to a structured `Options` value.
- `BinGeometry` (`geometry.dfy`): the bin of one coordinate. `BinIndex` floors `(x - lo) * n / (hi - lo)` over exact reals. `InBin` is the independent reference definition of bin `k`. `BinIndices` gives the bin tuple of a whole point.
- `FlatIndexing` (`flatindex.dfy`): the Horner flat offset `acc * n_k + i_k`, its inverse `Unflatten`, and the total bin count `Product`.
- `Accumulation` (`engine.dfy`): one call as a pure function. Each sample yields a `Placement` (dropped, or one cell plus an optional weight). `Histogram` replays the placements, in order, on the caller's buffers.
- `HistogramProps`, `SampleProps`, `CallProps` (`props.dfy`, `samples.dfy`, `calls.dfy`): properties of a replay, of one sample, and of whole calls.
- `Kernel` (`kernel.dfy`): the imperative kernel. It loops over samples, resolves each bin dimension by dimension in Horner form, and updates the caller's two arrays in place. `HistogramNd` is proved equal to the pure `Histogram`.
- `Scenarios` (`scenarios.dfy`): concrete one-dimensional calls, with their results proved.

The interface leaves one behaviour open: is a sample whose weight fails an active bound
still counted in `o_histo`? Its weight never reaches `o_cumul`; only the count is in
question. The model takes this as a parameter, `FilterPolicy`, with two readings:

- `CumulOnly`: the sample is still counted;
- `WholeSample`: the sample is dropped from both buffers.

Every property below holds for the reading it names. Neither reading is presented as the
behaviour of the compiled library.

## Model

| member | source | states |
|---|---|---|
| `HistoFlags.HasBit` | silx/math/histogramnd/include/histogramnd_c.h:8-13 | an option is enabled when the bitset shares a set bit with its enumerator |
| `HistoFlags.Encode` | silx/math/histogramnd/include/histogramnd_c.h:8-13 | OR-ing the enumerators of the enabled options sets exactly the bit of each enabled option and no bit outside the three known ones |
| `HistoFlags.Decode` | silx/math/histogramnd/include/histogramnd_c.h:8-13 | the options read from any bitset re-encode to that bitset with its unknown bits cleared |
| `HistoFlags.DecodeEncode` | silx/math/histogramnd/include/histogramnd_c.h:8-13 | every OR-combination of the enumerators decodes back to the options it was built from |
| `HistoFlags.EncodeInjective` | silx/math/histogramnd/include/histogramnd_c.h:8-13 | two different option sets never produce the same bitset |
| `HistoFlags.FlagsAreDistinctBits` | silx/math/histogramnd/include/histogramnd_c.h:8-13 | `HISTO_WEIGHT_MIN`, `HISTO_WEIGHT_MAX` and `HISTO_LAST_BIN_CLOSED` are single, pairwise disjoint bits; `HISTO_NONE` enables no option |
| `BinGeometry.Lo` | silx/math/histogramnd/include/histogramnd_c.h:24-25 | definition: the minimum of dimension `k` is element `2k` of `i_bin_ranges` |
| `BinGeometry.Hi` | silx/math/histogramnd/include/histogramnd_c.h:24-25 | definition: the maximum of dimension `k` is element `2k + 1` of `i_bin_ranges` |
| `BinGeometry.ValidAxes` | silx/math/histogramnd/include/histogramnd_c.h:24-25 | definition: `i_bin_ranges` holds one `(min, max)` pair per dimension, with `min < max` and a positive bin count in every dimension |
| `BinGeometry.Width` | silx/math/histogramnd/include/histogramnd_c.h:24-25 | the `n` equal bins of a non-empty range `[min, max)` have a positive width |
| `BinGeometry.InBin` | silx/math/histogramnd/include/histogramnd_c.h:24-25 | reference definition of bin `k`: the half-open interval `[min + k*w, min + k*w + w)` with `w = (max - min) / n` |
| `BinGeometry.InRange` | silx/math/histogramnd/include/histogramnd_c.h:20-25 | a coordinate is kept along a dimension when it lies in `[min, max)`, or equals `max` with `HISTO_LAST_BIN_CLOSED` set |
| `BinGeometry.BinIndex` | silx/math/histogramnd/include/histogramnd_c.h:24-25 | a coordinate gets a bin exactly when it lies in `[min, max)`, or equals `max` with the last bin closed; the bin is in `[0, n)` and is the reference bin `InBin` holding the coordinate, or `n - 1` on the closed upper edge |
| `BinGeometry.FloorIsBin` | silx/math/histogramnd/include/histogramnd_c.h:24-25 | for a coordinate in `[min, max)`, the floor of the scaled offset is a bin in `[0, n)` whose half-open interval `[min + k*w, min + k*w + w)` holds the coordinate |
| `BinGeometry.BinUnique` | silx/math/histogramnd/include/histogramnd_c.h:24-25 | the bins of one dimension do not overlap: a coordinate lies in at most one of them |
| `BinGeometry.AxisBin` | silx/math/histogramnd/include/histogramnd_c.h:20-25 | the bin of coordinate `k` of a point, taken against the `k`-th `(min, max)` pair and the `k`-th bin count |
| `BinGeometry.BinIndices` | silx/math/histogramnd/include/histogramnd_c.h:20-25 | a point has a bin tuple exactly when every coordinate has a bin in its dimension, and the tuple holds those bins in dimension order |
| `BinGeometry.BinIndicesInRange` | silx/math/histogramnd/include/histogramnd_c.h:20-25 | a point has a bin tuple exactly when every coordinate is in range along its own dimension |
| `FlatIndexing.Product` | silx/math/histogramnd/include/histogramnd_c.h:25-27 | with positive bin counts, the number of cells of both output buffers is positive |
| `FlatIndexing.FlatIndex` | silx/math/histogramnd/include/histogramnd_c.h:25-27 | a bin tuple within the shape `i_n_bin` has a flat offset in `[0, product of i_n_bin)`, the index space of `o_histo` and `o_cumul` |
| `FlatIndexing.Unflatten` | silx/math/histogramnd/include/histogramnd_c.h:25-27 | every cell offset corresponds to a bin tuple within the shape |
| `FlatIndexing.FlatIndexUnflatten` | silx/math/histogramnd/include/histogramnd_c.h:25-27 | every cell of the output buffers is the flat offset of the bin tuple stored there |
| `FlatIndexing.UnflattenFlatIndex` | silx/math/histogramnd/include/histogramnd_c.h:25-27 | the bin tuple is recovered from its flat offset |
| `FlatIndexing.FlatIndexInjective` | silx/math/histogramnd/include/histogramnd_c.h:25-27 | two different bin tuples never share a cell |
| `FlatIndexing.FlatIndexStride` | silx/math/histogramnd/include/histogramnd_c.h:25-27 | raising the bin of dimension `k` by one moves the flat offset by the product of the bin counts of the later dimensions, and by exactly 1 for the last dimension, which therefore varies fastest |
| `FlatIndexing.StrideStep` | silx/math/histogramnd/include/histogramnd_c.h:25-27 | two bin tuples that differ only in dimension `k`, by one, have flat offsets exactly one stride of dimension `k` apart |
| `Accumulation.ValidRequest` | silx/math/histogramnd/include/histogramnd_c.h:20-30 | the inputs a call needs: at least one dimension, a non-negative sample count, a positive bin count and `min < max` per dimension, and buffers of lengths `i_n_elem * i_n_dim`, `2 * i_n_dim`, `i_n_dim` and `i_n_elem` |
| `Accumulation.Coords` | silx/math/histogramnd/include/histogramnd_c.h:20-23 | sample `i` is a slice of exactly `i_n_dim` coordinates of the flat sample buffer |
| `Accumulation.CoordsLayout` | silx/math/histogramnd/include/histogramnd_c.h:20-23 | coordinate `k` of sample `i` is element `i * i_n_dim + k` of the flat sample buffer, inside the buffer |
| `Accumulation.LastClosed` | silx/math/histogramnd/include/histogramnd_c.h:28 | definition: the last bin of every dimension is closed in a call when `i_opt_flags` enables `HISTO_LAST_BIN_CLOSED` |
| `Accumulation.SampleInRange` | silx/math/histogramnd/include/histogramnd_c.h:20-25 | reference definition of an in-range sample: every coordinate lies within its own dimension's range |
| `Accumulation.Offset` | silx/math/histogramnd/include/histogramnd_c.h:20-27 | a sample has a flat cell exactly when every coordinate is in range (`SampleInRange`); the cell lies in `[0, product of i_n_bin)` and unflattens back to the sample's per-dimension bin tuple |
| `Accumulation.WeightPasses` | silx/math/histogramnd/include/histogramnd_c.h:28-30 | a weight passes when it is at least `i_weight_min` if `HISTO_WEIGHT_MIN` is set and at most `i_weight_max` if `HISTO_WEIGHT_MAX` is set |
| `Accumulation.WeightBounds` | silx/math/histogramnd/include/histogramnd_c.h:28-30 | a weight bound is consulted only when its option bit is set; with neither set every weight passes; a weight below an active minimum or above an active maximum fails |
| `Accumulation.WeightAccepted` | silx/math/histogramnd/include/histogramnd_c.h:21-30 | sample `i` has a weight and that weight passes the bounds of the call's options |
| `Accumulation.Counted` | silx/math/histogramnd/include/histogramnd_c.h:20-30 | sample `i` adds 1 to `o_histo`: it has a cell, and its weight passes unless there is no weight buffer or the reading is `CumulOnly` |
| `Accumulation.Cumulated` | silx/math/histogramnd/include/histogramnd_c.h:21-30 | sample `i` adds its weight to `o_cumul`: it has a cell, a weight buffer is given and its weight passes |
| `Accumulation.Place` | silx/math/histogramnd/include/histogramnd_c.h:20-30 | a sample is placed exactly when it is in range (`SampleInRange`) and, with a weight buffer under `WholeSample`, its weight passes the active bounds (`WeightPasses`); it carries a weight exactly when it is in range, a weight buffer is given and the weight passes; the carried weight is its own and its cell lies in the output buffers |
| `Accumulation.Placements` | silx/math/histogramnd/include/histogramnd_c.h:20-27 | one placement per sample, in input order, each inside the output buffers |
| `Accumulation.Apply` | silx/math/histogramnd/include/histogramnd_c.h:26-27 | an accepted sample adds exactly 1 to one count cell and its weight, if any, to the same cumulated cell; every other cell is unchanged; a dropped sample changes nothing |
| `Accumulation.Replay` | silx/math/histogramnd/include/histogramnd_c.h:26-27 | applying placements one after the other keeps both buffers at their size |
| `Accumulation.Run` | silx/math/histogramnd/include/histogramnd_c.h:20-30 | processing the first `k` samples in input order leaves both outputs with one cell per bin |
| `Accumulation.Histogram` | silx/math/histogramnd/include/histogramnd_c.h:20-30 | a whole call leaves both outputs with one cell per bin; its cell-by-cell effect is stated by the `CallProps` lemmas |
| `HistogramProps.SumIncrement` | silx/math/histogramnd/include/histogramnd_c.h:26 | adding 1 to one count cell adds 1 to the total count |
| `HistogramProps.HitsLast` | silx/math/histogramnd/include/histogramnd_c.h:26 | the last sample adds at most itself to the reference count of a cell |
| `HistogramProps.NumPlacedLast` | silx/math/histogramnd/include/histogramnd_c.h:23 | the last sample adds at most itself to the number of accepted samples |
| `HistogramProps.NumPlacedBound` | silx/math/histogramnd/include/histogramnd_c.h:23 | at most `i_n_elem` samples are accepted, and all of them exactly when none is dropped |
| `HistogramProps.ReplayCountAt` | silx/math/histogramnd/include/histogramnd_c.h:26 | each count cell grows by exactly the number of samples placed into it |
| `HistogramProps.ReplayCumulAt` | silx/math/histogramnd/include/histogramnd_c.h:27 | each cumulated cell grows by exactly the weights placed into it |
| `HistogramProps.ReplaySum` | silx/math/histogramnd/include/histogramnd_c.h:23-26 | the total count grows by exactly the number of accepted samples |
| `HistogramProps.SumRealAdd` | silx/math/histogramnd/include/histogramnd_c.h:27 | adding a weight to one cumulated cell adds it to the total |
| `HistogramProps.ReplayCumulSum` | silx/math/histogramnd/include/histogramnd_c.h:27 | the cumulated total grows by exactly the weight the accepted samples carry |
| `SampleProps.CountedIffInRange` | silx/math/histogramnd/include/histogramnd_c.h:20-26 | without a weight buffer, or under `CumulOnly`, a sample is counted exactly when it is in range |
| `SampleProps.OffsetIsBin` | silx/math/histogramnd/include/histogramnd_c.h:24-27 | unflattened, a sample's cell gives in every dimension the bin whose half-open interval holds the coordinate, or the last bin on the closed upper edge |
| `SampleProps.BelowMinDropped` | silx/math/histogramnd/include/histogramnd_c.h:20-25 | a sample with a coordinate below its dimension's minimum changes neither output |
| `SampleProps.AboveMaxDropped` | silx/math/histogramnd/include/histogramnd_c.h:20-25 | a sample with a coordinate above its dimension's maximum changes neither output |
| `SampleProps.UpperEdge` | silx/math/histogramnd/include/histogramnd_c.h:12 | a coordinate equal to its dimension's maximum drops the sample unless `HISTO_LAST_BIN_CLOSED` is set; with it set, the sample is binned exactly when its other coordinates are in range, and that coordinate gets bin `n - 1` |
| `SampleProps.FilteredWeight` | silx/math/histogramnd/include/histogramnd_c.h:10-11 | a weight below an active minimum or above an active maximum never reaches `o_cumul`; under `WholeSample` the sample is dropped, under `CumulOnly` it is still counted exactly when it has a cell |
| `SampleProps.AcceptedWeight` | silx/math/histogramnd/include/histogramnd_c.h:21-30 | an in-range sample whose weight passes the active bounds is counted and cumulated in its own cell with its own weight |
| `SampleProps.NoWeightBuffer` | silx/math/histogramnd/include/histogramnd_c.h:21 | without a weight buffer a sample is counted exactly when it is in range and carries no weight |
| `CallProps.HitsAreCounts` | silx/math/histogramnd/include/histogramnd_c.h:26 | the samples placed into a cell are exactly the samples counted into it |
| `CallProps.PlacedAreCounted` | silx/math/histogramnd/include/histogramnd_c.h:23-26 | the accepted samples of a call are exactly its counted samples |
| `CallProps.WeightAtIsWeightIn` | silx/math/histogramnd/include/histogramnd_c.h:27 | the weights placed into a cell are exactly the weights cumulated into it |
| `CallProps.HistogramCountAt` | silx/math/histogramnd/include/histogramnd_c.h:26 | after a call, a count cell has grown by the number of samples counted into it |
| `CallProps.HistogramCumulAt` | silx/math/histogramnd/include/histogramnd_c.h:27 | after a call, a cumulated cell has grown by the weights cumulated into it |
| `CallProps.HistogramCounts` | silx/math/histogramnd/include/histogramnd_c.h:26 | after a call, every count cell has grown by the number of samples counted into it, and by nothing else |
| `CallProps.HistogramCumul` | silx/math/histogramnd/include/histogramnd_c.h:27 | after a call, every cumulated cell has grown by the weights cumulated into it, and by nothing else |
| `CallProps.Accumulates` | silx/math/histogramnd/include/histogramnd_c.h:26-27 | the outputs are accumulated into, never reset: a call adds to existing buffers exactly what it produces from zeroed ones |
| `CallProps.CallTwiceDoubles` | silx/math/histogramnd/include/histogramnd_c.h:26-27 | running the same call twice without zeroing in between doubles every cell of both outputs |
| `CallProps.Monotone` | silx/math/histogramnd/include/histogramnd_c.h:26-27 | counts never decrease; cumulated weights never decrease when no weight is negative |
| `CallProps.WeightInNonNegative` | silx/math/histogramnd/include/histogramnd_c.h:27 | with no negative weight, no cell accumulates a negative weight |
| `CallProps.AllPlacedIffAllCounted` | silx/math/histogramnd/include/histogramnd_c.h:23-26 | no sample is dropped exactly when every sample is counted |
| `CallProps.TotalCount` | silx/math/histogramnd/include/histogramnd_c.h:23-26 | the total count grows by the number of counted samples, which is at most `i_n_elem` and equals it exactly when every sample is counted |
| `CallProps.TotalCountIffAllInRange` | silx/math/histogramnd/include/histogramnd_c.h:20-26 | without a filter that can drop samples, the total count grows by `i_n_elem` exactly when every sample lies within all dimension ranges |
| `CallProps.NoWeightsCumulUntouched` | silx/math/histogramnd/include/histogramnd_c.h:21-27 | without a weight buffer `o_cumul` is left untouched |
| `CallProps.NoWeightsNoCumulation` | silx/math/histogramnd/include/histogramnd_c.h:21-27 | without a weight buffer no weight is cumulated into any cell |
| `CallProps.BareSample` | silx/math/histogramnd/include/histogramnd_c.h:21 | dropping the weight buffer never changes a sample's cell, under either `FilterPolicy`, and under `CumulOnly` does not change whether it is counted |
| `CallProps.BareCountIn` | silx/math/histogramnd/include/histogramnd_c.h:21-26 | under `CumulOnly` every cell counts the same samples with or without the weight buffer |
| `CallProps.CountsIgnoreWeightFilter` | silx/math/histogramnd/include/histogramnd_c.h:26-30 | under `CumulOnly` the weight bounds never affect `o_histo`: it equals the result of the same call without weights |
| `CallProps.UnfilteredPlace` | silx/math/histogramnd/include/histogramnd_c.h:21-30 | with a weight buffer and no active bound, a sample carries its weight exactly when it is in range |
| `CallProps.PlacedWeightInRange` | silx/math/histogramnd/include/histogramnd_c.h:21-30 | with no active bound, the accepted samples carry exactly the weights of the in-range samples |
| `CallProps.TotalCumul` | silx/math/histogramnd/include/histogramnd_c.h:21-30 | with no active bound, the cumulated total grows by the sum of the weights of the in-range samples |
| `Kernel.AxisBinIndex` | silx/math/histogramnd/include/histogramnd_c.h:24-25 | the kernel's per-dimension bin is -1 exactly when the coordinate is out of range, and otherwise the bin `BinIndex` defines |
| `Kernel.RejectedAxis` | silx/math/histogramnd/include/histogramnd_c.h:24-25 | one out-of-range coordinate leaves the whole point without a bin tuple |
| `Kernel.ResolveBin` | silx/math/histogramnd/include/histogramnd_c.h:24-27 | the kernel's dimension loop returns -1 exactly when the point has no bin tuple, and otherwise the flat offset of that tuple, inside the output buffers |
| `Kernel.PlaceSample` | silx/math/histogramnd/include/histogramnd_c.h:20-30 | the kernel's handling of sample `i` (slicing its coordinates, resolving its cell, testing its weight) agrees with the pure placement |
| `Kernel.ApplyInPlace` | silx/math/histogramnd/include/histogramnd_c.h:26-27 | updating the caller's arrays in place has the effect of the pure `Apply` |
| `Kernel.HistogramNd` | silx/math/histogramnd/include/histogramnd_c.h:20-30 | one call updates the caller's `o_histo` and `o_cumul` arrays exactly as the pure `Histogram` prescribes |
| `Scenarios.OneDimPlace` | silx/math/histogramnd/include/histogramnd_c.h:20-30 | over `[0, 10]` with two bins, `[0, 5)` goes to bin 0 and `[5, 10)` to bin 1; `10` goes to bin 1 with `HISTO_LAST_BIN_CLOSED` and is dropped without it |
| `Scenarios.ApplyUnit` | silx/math/histogramnd/include/histogramnd_c.h:26-27 | a unit-weight sample in a two-cell histogram adds 1 to the same cell of both buffers |
| `Scenarios.ReplayTwoThree` | silx/math/histogramnd/include/histogramnd_c.h:26-27 | two unit samples into bin 0 then three into bin 1 give counts `[2, 3]` and weights `[2.0, 3.0]` |
| `Scenarios.FivePlacements` | silx/math/histogramnd/include/histogramnd_c.h:20-30 | for the samples `0.0, 2.5, 5.0, 7.5, 9.99`, the first two land in bin 0 and the last three in bin 1 |
| `Scenarios.FiveSamples` | silx/math/histogramnd/include/histogramnd_c.h:20-30 | the five samples with unit weights give `o_histo = [2, 3]` and `o_cumul = [2.0, 3.0]`, because `5.0` opens the half-open bin 1 |
| `Scenarios.EdgePlacements` | silx/math/histogramnd/include/histogramnd_c.h:12 | a sixth sample at exactly `10.0` lands in bin 1 only when `HISTO_LAST_BIN_CLOSED` is set |
| `Scenarios.EdgeSample` | silx/math/histogramnd/include/histogramnd_c.h:12 | with the edge sample, the buffers stay `[2, 3]` without the flag and become `[2, 4]`, `[2.0, 4.0]` with it |

## Left out

- The nine entry points (`histogramnd_c.h:20-134`) differ only in the storage types of samples and weights. They are modelled once, with `real` samples, weights and bounds. The widening of `float` and `int32_t` weights to `double` is not modelled.
- IEEE floating-point rounding is not modelled. Bin computation and cumulation use exact reals, which have no NaN and no infinities, so a NaN or infinite coordinate or weight has no counterpart in the model. In particular, the model cannot show a coordinate just below `max` rounding into bin `n`.
- `FlatIndexing.FlatIndex`: offsets, `Product` and the buffer length `i_n_elem * i_n_dim` are unbounded integers. The header declares `i_n_dim`, `i_n_elem` and `i_n_bin` as `int`; products and offsets computed from them in fixed-width arithmetic can overflow, whereas the model's are unbounded. No precondition excludes such inputs: for them the model computes the exact offset.
- `Accumulation.Apply`: counts are unbounded naturals. The `uint32_t` counters of `o_histo` would wrap after 2^32 samples in one cell; that is not modelled.
- The integer status code is not modelled: the interface declares an `int` return but no status values. Valid inputs are a precondition (`ValidRequest`):
  - at least one dimension;
  - a non-negative sample count;
  - a positive bin count in every dimension;
  - `min < max` in every dimension;
  - buffers of matching lengths.
- A zero-width range (`min == max`) is excluded by that precondition. The interface does not say which bin, if any, its samples get.
- The weight bounds apply only when a weight buffer is given. Without one there is no weight to compare, so no sample is filtered by them under either `FilterPolicy`.
- `FilterPolicy` itself: whether a sample whose weight fails a bound is still counted is not fixed by the interface. Both readings are modelled, and properties that depend on the choice name it.
- `CallProps.Monotone`: cumulated weights are proved non-decreasing only when no weight is negative. Negative `double`, `float` or `int32_t` weights make a cell of `o_cumul` decrease.
- Option bits other than the three enumerators are ignored by `HistoFlags.Decode`. The interface does not say what they mean.
- Multi-threaded partitioning of the samples and allocation of the output buffers happen outside the kernel, so neither is modelled.


=== FILE: calls.dfy ===
/**
 Properties of one complete call and of repeated calls on the same buffers.
 */
module CallProps {
  import opened Wrappers
  import opened HistoFlags
  import opened Accumulation
  import opened HistogramProps
  import opened SampleProps

  /** Reference count of cell `j`: the number of samples of the call counted into it. */
  function CountIn(req: Request, j: int): nat
    requires ValidRequest(req)
  {
    |set i | 0 <= i < req.nElem && CountedInto(req, i, j)|
  }

  /** Whether sample `i` is counted into cell `j`. */
  predicate CountedInto(req: Request, i: nat, j: int)
    requires ValidRequest(req) && i < req.nElem
  {
    Counted(req, i) && Offset(req, i) == Some(j)
  }

  /** Reference cumulated weight of cell `j`: the weights of the first `k` samples cumulated into it. */
  function WeightIn(req: Request, k: nat, j: int): real
    requires ValidRequest(req) && k <= req.nElem
  {
    if k == 0 then 0.0
    else WeightIn(req, k - 1, j) + (if Cumulated(req, k - 1) && Offset(req, k - 1) == Some(j) then req.weights.value[k - 1] else 0.0)
  }

  /** The number of samples of the call that are counted. */
  function NumCounted(req: Request): nat
    requires ValidRequest(req)
  {
    |set i | 0 <= i < req.nElem && Counted(req, i)|
  }

  /** The placements of a call place into cell `j` exactly the samples counted into it. */
  lemma HitsAreCounts(req: Request, j: int)
    requires ValidRequest(req)
    ensures Hits(Placements(req), j) == CountIn(req, j)
  {
    var ps := Placements(req);
    assert (set i | 0 <= i < |ps| && ps[i].Placed? && ps[i].cell == j)
        == (set i | 0 <= i < req.nElem && CountedInto(req, i, j));
  }

  /** The placements of a call place exactly the counted samples. */
  lemma PlacedAreCounted(req: Request)
    requires ValidRequest(req)
    ensures NumPlaced(Placements(req)) == NumCounted(req)
  {
    var ps := Placements(req);
    assert (set i | 0 <= i < |ps| && ps[i].Placed?) == (set i | 0 <= i < req.nElem && Counted(req, i));
  }

  /** The weights placed into cell `j` by the first `k` placements are those cumulated into it. */
  lemma {:induction false} WeightAtIsWeightIn(req: Request, k: nat, j: int)
    requires ValidRequest(req) && k <= req.nElem
    ensures WeightAt(Placements(req)[..k], j) == WeightIn(req, k, j)
    decreases k
  {
    if k > 0 {
      var ps := Placements(req);
      assert ps[..k][..k - 1] == ps[..k - 1];
      WeightAtIsWeightIn(req, k - 1, j);
    }
  }

  /** Cell `j` of the count buffer after a call has grown by the number of samples counted into it. */
  lemma HistogramCountAt(req: Request, out: Histo, j: int)
    requires ValidRequest(req) && Shaped(req, out) && 0 <= j < |out.counts|
    ensures Histogram(req, out).counts[j] == out.counts[j] + CountIn(req, j)
  {
    var ps := Placements(req);
    assert ps[..req.nElem] == ps;
    ReplayCountAt(out, ps, j);
    HitsAreCounts(req, j);
  }

  /** Cell `j` of the cumulated buffer after a call has grown by the weights cumulated into it. */
  lemma HistogramCumulAt(req: Request, out: Histo, j: int)
    requires ValidRequest(req) && Shaped(req, out) && 0 <= j < |out.cumul|
    ensures Histogram(req, out).cumul[j] == out.cumul[j] + WeightIn(req, req.nElem, j)
  {
    var ps := Placements(req);
    assert ps[..req.nElem] == ps;
    ReplayCumulAt(out, ps, j);
    WeightAtIsWeightIn(req, req.nElem, j);
  }

  /**
   The count buffer after a call: every cell has grown by the number of samples
   counted into it, and by nothing else.
   */
  lemma HistogramCounts(req: Request, out: Histo)
    requires ValidRequest(req) && Shaped(req, out)
    ensures forall j :: 0 <= j < |out.counts| ==> Histogram(req, out).counts[j] == out.counts[j] + CountIn(req, j)
  {
    forall j | 0 <= j < |out.counts|
      ensures Histogram(req, out).counts[j] == out.counts[j] + CountIn(req, j)
    {
      HistogramCountAt(req, out, j);
    }
  }

  /**
   The cumulated buffer after a call: every cell has grown by the weights
   cumulated into it, and by nothing else.
   */
  lemma HistogramCumul(req: Request, out: Histo)
    requires ValidRequest(req) && Shaped(req, out)
    ensures forall j :: 0 <= j < |out.cumul| ==> Histogram(req, out).cumul[j] == out.cumul[j] + WeightIn(req, req.nElem, j)
  {
    forall j | 0 <= j < |out.cumul|
      ensures Histogram(req, out).cumul[j] == out.cumul[j] + WeightIn(req, req.nElem, j)
    {
      HistogramCumulAt(req, out, j);
    }
  }

  /**
   The buffers are accumulated into, never reset: a call on existing buffers adds
   exactly what the same call adds to zeroed buffers.
   */
  lemma Accumulates(req: Request, out: Histo)
    requires ValidRequest(req) && Shaped(req, out)
    ensures var delta, r := Histogram(req, Zero(req)), Histogram(req, out);
      forall j :: 0 <= j < |out.counts| ==>
        r.counts[j] == out.counts[j] + delta.counts[j] && r.cumul[j] == out.cumul[j] + delta.cumul[j]
  {
    HistogramCounts(req, out);
    HistogramCounts(req, Zero(req));
    HistogramCumul(req, out);
    HistogramCumul(req, Zero(req));
  }

  /** Running the same call twice on zeroed buffers, without zeroing in between, doubles every cell. */
  lemma CallTwiceDoubles(req: Request)
    requires ValidRequest(req)
    ensures var once := Histogram(req, Zero(req));
      var twice := Histogram(req, once);
      forall j :: 0 <= j < |once.counts| ==>
        twice.counts[j] == 2 * once.counts[j] && twice.cumul[j] == 2.0 * once.cumul[j]
  {
    Accumulates(req, Histogram(req, Zero(req)));
  }

  /** Counts never decrease; cumulated weights never decrease when no weight is negative. */
  lemma Monotone(req: Request, out: Histo)
    requires ValidRequest(req) && Shaped(req, out)
    ensures forall j :: 0 <= j < |out.counts| ==> Histogram(req, out).counts[j] >= out.counts[j]
    ensures (req.weights.Some? ==> forall i :: 0 <= i < req.nElem ==> req.weights.value[i] >= 0.0) ==>
      forall j :: 0 <= j < |out.cumul| ==> Histogram(req, out).cumul[j] >= out.cumul[j]
  {
    HistogramCounts(req, out);
    HistogramCumul(req, out);
    if req.weights.Some? ==> forall i :: 0 <= i < req.nElem ==> req.weights.value[i] >= 0.0 {
      forall j | 0 <= j < |out.cumul|
        ensures WeightIn(req, req.nElem, j) >= 0.0
      {
        WeightInNonNegative(req, req.nElem, j);
      }
    }
  }

  /** With no negative weight the cumulated weight of a cell is never negative. */
  lemma {:induction false} WeightInNonNegative(req: Request, k: nat, j: int)
    requires ValidRequest(req) && k <= req.nElem
    requires req.weights.Some? ==> forall i :: 0 <= i < req.nElem ==> req.weights.value[i] >= 0.0
    ensures WeightIn(req, k, j) >= 0.0
    decreases k
  {
    if k > 0 {
      WeightInNonNegative(req, k - 1, j);
    }
  }

  /** Every placement of a call is placed exactly when every sample is counted. */
  lemma AllPlacedIffAllCounted(req: Request)
    requires ValidRequest(req)
    ensures (forall i :: 0 <= i < |Placements(req)| ==> Placements(req)[i].Placed?)
      <==> (forall i :: 0 <= i < req.nElem ==> Counted(req, i))
  {
    var ps := Placements(req);
    assert forall i :: 0 <= i < |ps| ==> (ps[i].Placed? <==> Counted(req, i));
  }

  /**
   The counts grow in total by the number of counted samples, which is at most the
   number of samples, and equals it exactly when every sample is counted.
   */
  lemma TotalCount(req: Request, out: Histo)
    requires ValidRequest(req) && Shaped(req, out)
    ensures Sum(Histogram(req, out).counts) == Sum(out.counts) + NumCounted(req)
    ensures NumCounted(req) <= req.nElem
    ensures NumCounted(req) == req.nElem <==> forall i :: 0 <= i < req.nElem ==> Counted(req, i)
  {
    var ps := Placements(req);
    assert ps[..req.nElem] == ps;
    ReplaySum(out, ps);
    PlacedAreCounted(req);
    NumPlacedBound(ps);
    AllPlacedIffAllCounted(req);
  }

  /**
   Without a filter that can drop samples, the count total grows by the number of
   samples exactly when every sample lies within all dimension ranges.
   */
  lemma TotalCountIffAllInRange(req: Request, out: Histo)
    requires ValidRequest(req) && Shaped(req, out)
    requires req.weights.None? || req.policy.CumulOnly?
    ensures Sum(Histogram(req, out).counts) == Sum(out.counts) + req.nElem
      <==> forall i :: 0 <= i < req.nElem ==> SampleInRange(req, i)
  {
    TotalCount(req, out);
    forall i | 0 <= i < req.nElem
      ensures Counted(req, i) <==> SampleInRange(req, i)
    {
      CountedIffInRange(req, i);
    }
  }

  /** Without a weight buffer the cumulated buffer is left untouched. */
  lemma NoWeightsCumulUntouched(req: Request, out: Histo)
    requires ValidRequest(req) && Shaped(req, out) && req.weights.None?
    ensures Histogram(req, out).cumul == out.cumul
  {
    HistogramCumul(req, out);
    forall j | 0 <= j < |out.cumul|
      ensures WeightIn(req, req.nElem, j) == 0.0
    {
      NoWeightsNoCumulation(req, req.nElem, j);
    }
  }

  /** Without a weight buffer nothing is cumulated into any cell. */
  lemma {:induction false} NoWeightsNoCumulation(req: Request, k: nat, j: int)
    requires ValidRequest(req) && k <= req.nElem && req.weights.None?
    ensures WeightIn(req, k, j) == 0.0
    decreases k
  {
    if k > 0 {
      NoWeightsNoCumulation(req, k - 1, j);
    }
  }

  /** Dropping the weight buffer never changes where a sample goes, nor, under `CumulOnly`, whether it is counted. */
  lemma BareSample(req: Request, i: nat)
    requires ValidRequest(req) && i < req.nElem
    ensures Offset(req.(weights := None), i) == Offset(req, i)
    ensures req.policy.CumulOnly? ==> (Counted(req.(weights := None), i) <==> Counted(req, i))
  {
    assert Coords(req.(weights := None), i) == Coords(req, i);
  }

  /** Under `CumulOnly` every cell counts the same samples with or without the weight buffer. */
  lemma BareCountIn(req: Request, j: int)
    requires ValidRequest(req) && req.policy.CumulOnly?
    ensures CountIn(req, j) == CountIn(req.(weights := None), j)
  {
    var bare := req.(weights := None);
    forall i | 0 <= i < req.nElem
      ensures CountedInto(req, i, j) <==> CountedInto(bare, i, j)
    {
      BareSample(req, i);
    }
    assert (set i | 0 <= i < req.nElem && CountedInto(req, i, j))
        == (set i | 0 <= i < bare.nElem && CountedInto(bare, i, j));
  }

  /**
   Under the `CumulOnly` reading the weight filter never touches the counts: they
   are exactly the counts of the same call without a weight buffer.
   */
  lemma CountsIgnoreWeightFilter(req: Request, out: Histo)
    requires ValidRequest(req) && Shaped(req, out) && req.policy.CumulOnly?
    ensures Histogram(req, out).counts == Histogram(req.(weights := None), out).counts
  {
    var bare := req.(weights := None);
    forall j | 0 <= j < |out.counts|
      ensures Histogram(req, out).counts[j] == Histogram(bare, out).counts[j]
    {
      HistogramCountAt(req, out, j);
      HistogramCountAt(bare, out, j);
      BareCountIn(req, j);
    }
  }

  /** No weight bound is switched on by the option bits. */
  predicate NoWeightFilter(req: Request)
  {
    !Decode(req.flags).weightMin && !Decode(req.flags).weightMax
  }

  /** Reference total: the weights of the first `k` samples that lie within all dimension ranges. */
  function InRangeWeight(req: Request, k: nat): real
    requires ValidRequest(req) && req.weights.Some? && k <= req.nElem
  {
    if k == 0 then 0.0
    else InRangeWeight(req, k - 1) + (if SampleInRange(req, k - 1) then req.weights.value[k - 1] else 0.0)
  }

  /** Without active weight bounds, a sample carries its weight into the buffers exactly when it is in range. */
  lemma UnfilteredPlace(req: Request, i: nat)
    requires ValidRequest(req) && i < req.nElem && req.weights.Some? && NoWeightFilter(req)
    ensures Place(req, i).Placed? <==> SampleInRange(req, i)
    ensures Place(req, i).Placed? ==> Place(req, i).weight == Some(req.weights.value[i])
  {
    WeightBounds(Decode(req.flags), req.weights.value[i], req.weightMin, req.weightMax, 0.0, 0.0);
  }

  /** The placements of the first `k` samples carry the weights of the in-range ones among them. */
  lemma {:induction false} PlacedWeightInRange(req: Request, k: nat)
    requires ValidRequest(req) && req.weights.Some? && NoWeightFilter(req) && k <= req.nElem
    ensures PlacedWeight(Placements(req)[..k]) == InRangeWeight(req, k)
    decreases k
  {
    if k > 0 {
      var ps := Placements(req);
      assert ps[..k][..k - 1] == ps[..k - 1];
      PlacedWeightInRange(req, k - 1);
      UnfilteredPlace(req, k - 1);
    }
  }

  /**
   Without active weight bounds the cumulated buffer grows in total by the sum of
   the weights of the samples that lie within all dimension ranges.
   */
  lemma TotalCumul(req: Request, out: Histo)
    requires ValidRequest(req) && Shaped(req, out) && req.weights.Some? && NoWeightFilter(req)
    ensures SumReal(Histogram(req, out).cumul) == SumReal(out.cumul) + InRangeWeight(req, req.nElem)
  {
    var ps := Placements(req);
    assert ps[..req.nElem] == ps;
    ReplayCumulSum(out, ps);
    PlacedWeightInRange(req, req.nElem);
  }
}

=== FILE: engine.dfy ===
/**
 The accumulation engine: every sample point, in input order, is resolved to a
 flat bin and adds 1 to that cell of the count buffer and, when a weight buffer is
 given and the weight passes the active bounds, its weight to the same cell of the
 cumulated-weight buffer. The buffers are only ever added to, never reset.
 */
module Accumulation {
  import opened Wrappers
  import opened HistoFlags
  import opened BinGeometry
  import opened FlatIndexing

  /**
   What happens to the count of a sample whose weight fails an active weight bound.
   The weight never reaches the cumulated buffer; whether the sample is still
   counted is a choice the interface leaves open, so both readings are modelled.
   */
  datatype FilterPolicy =
    | CumulOnly    // the sample is still counted, only its weight is dropped
    | WholeSample  // the sample is dropped from both buffers

  /** The inputs of one call; the weight buffer is optional (`NULL` in the interface). */
  datatype Request = Request(
    sample: seq<real>,
    weights: Option<seq<real>>,
    nDim: int,
    nElem: int,
    binRanges: seq<real>,
    nBins: seq<int>,
    flags: bv32,
    weightMin: real,
    weightMax: real,
    policy: FilterPolicy)

  /** The two caller-owned output buffers: counts and cumulated weights, one cell per bin. */
  datatype Histo = Histo(counts: seq<nat>, cumul: seq<real>)

  /** The inputs the caller must supply: positive dimension count and bin counts, non-empty ranges, buffers of matching length. */
  predicate ValidRequest(req: Request)
  {
    && req.nDim > 0
    && req.nElem >= 0
    && |req.nBins| == req.nDim
    && ValidAxes(req.binRanges, req.nBins)
    && |req.sample| == req.nElem * req.nDim
    && (req.weights.Some? ==> |req.weights.value| == req.nElem)
  }

  /** Both output buffers hold one cell per bin. */
  predicate Shaped(req: Request, out: Histo)
  {
    HasSize(out, Product(req.nBins))
  }

  /** The coordinates of sample `i`: `nDim` consecutive values of the flat sample buffer. */
  function Coords(req: Request, i: nat): (c: seq<real>)
    requires ValidRequest(req) && i < req.nElem
    ensures |c| == req.nDim
  {
    MulMonotone(i + 1, req.nElem, req.nDim);
    req.sample[i * req.nDim .. (i + 1) * req.nDim]
  }

  /** Sample `i` occupies positions `i * nDim .. i * nDim + nDim - 1` of the flat sample buffer (row-major). */
  lemma CoordsLayout(req: Request, i: nat, k: nat)
    requires ValidRequest(req) && i < req.nElem && k < req.nDim
    ensures i * req.nDim + k < |req.sample|
    ensures Coords(req, i)[k] == req.sample[i * req.nDim + k]
  {
    MulMonotone(i + 1, req.nElem, req.nDim);
  }

  /** Whether the last bin of every dimension includes its upper edge in this call. */
  function LastClosed(req: Request): bool
  {
    Decode(req.flags).lastBinClosed
  }

  /** Whether every coordinate of sample `i` is kept along its dimension. */
  predicate SampleInRange(req: Request, i: nat)
    requires ValidRequest(req) && i < req.nElem
  {
    forall d :: 0 <= d < req.nDim ==>
      InRange(Coords(req, i)[d], Lo(req.binRanges, d), Hi(req.binRanges, d), LastClosed(req))
  }

  /**
   The flat bin of sample `i`, or `None` when one of its coordinates is out of range.
   The flat bin unflattens back to the per-dimension bins of the sample.
   */
  function Offset(req: Request, i: nat): (r: Option<int>)
    requires ValidRequest(req) && i < req.nElem
    ensures r.Some? <==> SampleInRange(req, i)
    ensures r.Some? ==> 0 <= r.value < Product(req.nBins)
    ensures r.Some? ==>
      && BinIndices(Coords(req, i), req.binRanges, req.nBins, LastClosed(req)).Some?
      && Unflatten(r.value, req.nBins) == BinIndices(Coords(req, i), req.binRanges, req.nBins, LastClosed(req)).value
  {
    var c := Coords(req, i);
    BinIndicesInRange(c, req.binRanges, req.nBins, LastClosed(req));
    match BinIndices(c, req.binRanges, req.nBins, LastClosed(req))
    case None => None
    case Some(idx) =>
      assert InShape(idx, req.nBins);
      UnflattenFlatIndex(idx, req.nBins);
      Some(FlatIndex(idx, req.nBins))
  }

  /**
   Whether weight `w` passes the bounds the options switch on: at least `wMin`
   when the minimum is active, at most `wMax` when the maximum is active.
   */
  predicate WeightPasses(opts: Options, w: real, wMin: real, wMax: real)
  {
    (!opts.weightMin || w >= wMin) && (!opts.weightMax || w <= wMax)
  }

  /**
   The weight bounds are consulted only when their option is set: with neither set
   every weight passes; a weight below an active minimum or above an active maximum fails;
   and changing a bound whose option is off changes nothing.
   */
  lemma WeightBounds(opts: Options, w: real, wMin: real, wMax: real, otherMin: real, otherMax: real)
    ensures !opts.weightMin && !opts.weightMax ==> WeightPasses(opts, w, wMin, wMax)
    ensures opts.weightMin && w < wMin ==> !WeightPasses(opts, w, wMin, wMax)
    ensures opts.weightMax && w > wMax ==> !WeightPasses(opts, w, wMin, wMax)
    ensures opts.weightMin && opts.weightMax && wMin <= w <= wMax ==> WeightPasses(opts, w, wMin, wMax)
    ensures !opts.weightMin ==> WeightPasses(opts, w, otherMin, wMax) == WeightPasses(opts, w, wMin, wMax)
    ensures !opts.weightMax ==> WeightPasses(opts, w, wMin, otherMax) == WeightPasses(opts, w, wMin, wMax)
  {
  }

  /** Whether sample `i` carries a weight that passes the active bounds. */
  predicate WeightAccepted(req: Request, i: nat)
    requires ValidRequest(req) && i < req.nElem && req.weights.Some?
  {
    WeightPasses(Decode(req.flags), req.weights.value[i], req.weightMin, req.weightMax)
  }

  /** Whether sample `i` adds 1 to the count buffer. */
  predicate Counted(req: Request, i: nat)
    requires ValidRequest(req) && i < req.nElem
  {
    && Offset(req, i).Some?
    && (req.policy.CumulOnly? || req.weights.None? || WeightAccepted(req, i))
  }

  /** Whether sample `i` adds its weight to the cumulated-weight buffer. */
  predicate Cumulated(req: Request, i: nat)
    requires ValidRequest(req) && i < req.nElem
  {
    Offset(req, i).Some? && req.weights.Some? && WeightAccepted(req, i)
  }

  /** What one sample does to the buffers: nothing, or one count in `cell` and possibly a weight in the same cell. */
  datatype Placement = Dropped | Placed(cell: int, weight: Option<real>)

  /** Every placement names a cell of buffers of length `size`. */
  predicate Fits(ps: seq<Placement>, size: int)
  {
    forall i :: 0 <= i < |ps| && ps[i].Placed? ==> 0 <= ps[i].cell < size
  }

  /**
   Where sample `i` goes: dropped when a coordinate is out of range (or, under
   `WholeSample`, when its weight fails a bound); otherwise counted into its flat
   bin, carrying its weight exactly when it is cumulated.
   */
  function Place(req: Request, i: nat): (p: Placement)
    requires ValidRequest(req) && i < req.nElem
    ensures p.Placed? <==>
      && SampleInRange(req, i)
      && (req.policy.CumulOnly? || req.weights.None?
          || WeightPasses(Decode(req.flags), req.weights.value[i], req.weightMin, req.weightMax))
    ensures p.Placed? && p.weight.Some? <==>
      && SampleInRange(req, i)
      && req.weights.Some?
      && WeightPasses(Decode(req.flags), req.weights.value[i], req.weightMin, req.weightMax)
    ensures p.Placed? <==> Counted(req, i)
    ensures p.Placed? ==> Offset(req, i) == Some(p.cell) && 0 <= p.cell < Product(req.nBins)
    ensures Cumulated(req, i) <==> p.Placed? && p.weight.Some?
    ensures p.Placed? && p.weight.Some? ==> p.weight.value == req.weights.value[i]
  {
    if !Counted(req, i) then Dropped
    else Placed(Offset(req, i).value, if Cumulated(req, i) then Some(req.weights.value[i]) else None)
  }

  /** The placements of all samples of the call, in input order. */
  function Placements(req: Request): (ps: seq<Placement>)
    requires ValidRequest(req)
    ensures |ps| == req.nElem
    ensures forall i :: 0 <= i < req.nElem ==> ps[i] == Place(req, i)
    ensures Fits(ps, Product(req.nBins))
  {
    seq(req.nElem, i requires 0 <= i < req.nElem => Place(req, i))
  }

  /** Both buffers hold `size` cells. */
  predicate HasSize(out: Histo, size: int)
  {
    |out.counts| == size && |out.cumul| == size
  }

  /**
   Applying one placement: a placed sample changes exactly one count cell, by 1,
   and at most the same cell of the cumulated buffer, by its weight; a dropped
   sample changes nothing.
   */
  function Apply(out: Histo, p: Placement): (r: Histo)
    requires |out.counts| == |out.cumul|
    requires p.Placed? ==> 0 <= p.cell < |out.counts|
    ensures HasSize(r, |out.counts|)
    ensures p.Dropped? ==> r == out
    ensures p.Placed? ==>
      && r.counts[p.cell] == out.counts[p.cell] + 1
      && forall j :: 0 <= j < |out.counts| && j != p.cell ==> r.counts[j] == out.counts[j]
    ensures p.Placed? && p.weight.Some? ==>
      && r.cumul[p.cell] == out.cumul[p.cell] + p.weight.value
      && forall j :: 0 <= j < |out.cumul| && j != p.cell ==> r.cumul[j] == out.cumul[j]
    ensures p.Placed? && p.weight.None? ==> r.cumul == out.cumul
  {
    match p
    case Dropped => out
    case Placed(c, w) =>
      var cumul := match w
        case None => out.cumul
        case Some(v) => out.cumul[c := out.cumul[c] + v];
      Histo(out.counts[c := out.counts[c] + 1], cumul)
  }

  /** The buffers after applying placements `ps` in order. */
  function Replay(out: Histo, ps: seq<Placement>): (r: Histo)
    requires |out.counts| == |out.cumul| && Fits(ps, |out.counts|)
    ensures HasSize(r, |out.counts|)
    decreases |ps|
  {
    if |ps| == 0 then out
    else
      var m := |ps| - 1;
      Apply(Replay(out, ps[..m]), ps[m])
  }

  /** The buffers after processing samples `0 .. k-1` in input order. */
  function Run(req: Request, out: Histo, k: nat): (r: Histo)
    requires ValidRequest(req) && Shaped(req, out) && k <= req.nElem
    ensures Shaped(req, r)
  {
    Replay(out, Placements(req)[..k])
  }

  /** The buffers after one complete call. */
  function Histogram(req: Request, out: Histo): (r: Histo)
    requires ValidRequest(req) && Shaped(req, out)
    ensures Shaped(req, r)
  {
    Run(req, out, req.nElem)
  }
}

=== FILE: flags.dfy ===
/**
 The option bitset of the histogram entry points (`histo_opt_type`).
 The caller passes the bitset as a C `int`; here it is its 32-bit pattern.
 */
module HistoFlags {

  /** No option: half-open bins, no weight filtering. */
  const HistoNone: bv32 := 0
  /** Cumulate only weights at or above the weight minimum. */
  const WeightMinBit: bv32 := 1
  /** Cumulate only weights at or below the weight maximum. */
  const WeightMaxBit: bv32 := 1 << 1
  /** The last bin of every dimension includes its upper edge. */
  const LastBinClosedBit: bv32 := 1 << 2

  /** The bits that carry a meaning; all others are ignored. */
  const KnownBits: bv32 := 7

  /** The decoded, structured form of the bitset. */
  datatype Options = Options(weightMin: bool, weightMax: bool, lastBinClosed: bool)

  /** Whether `flags` shares a set bit with `bit`: the C test `flags & bit`. */
  predicate HasBit(flags: bv32, bit: bv32)
  {
    flags & bit != 0
  }

  /** The bitset a caller builds by OR-ing the enumerators of the enabled options. */
  function Encode(o: Options): (flags: bv32)
    ensures flags & !KnownBits == 0
    ensures HasBit(flags, WeightMinBit) <==> o.weightMin
    ensures HasBit(flags, WeightMaxBit) <==> o.weightMax
    ensures HasBit(flags, LastBinClosedBit) <==> o.lastBinClosed
  {
    (if o.weightMin then WeightMinBit else HistoNone)
    | (if o.weightMax then WeightMaxBit else HistoNone)
    | (if o.lastBinClosed then LastBinClosedBit else HistoNone)
  }

  /** Which options a bitset enables; bits outside `KnownBits` are ignored. */
  function Decode(flags: bv32): (o: Options)
    ensures Encode(o) == flags & KnownBits
  {
    Options(HasBit(flags, WeightMinBit), HasBit(flags, WeightMaxBit), HasBit(flags, LastBinClosedBit))
  }

  /** Every OR-combination of the enumerators decodes back to exactly the options it was built from. */
  lemma DecodeEncode(o: Options)
    ensures Decode(Encode(o)) == o
  {
  }

  /** Two different option sets never share a bitset. */
  lemma EncodeInjective(a: Options, b: Options)
    ensures Encode(a) == Encode(b) ==> a == b
  {
    DecodeEncode(a);
    DecodeEncode(b);
  }

  /** The enumerators are distinct single bits, and `HistoNone` enables no option. */
  lemma FlagsAreDistinctBits()
    ensures WeightMinBit != 0 && WeightMinBit & (WeightMinBit - 1) == 0
    ensures WeightMaxBit != 0 && WeightMaxBit & (WeightMaxBit - 1) == 0
    ensures LastBinClosedBit != 0 && LastBinClosedBit & (LastBinClosedBit - 1) == 0
    ensures WeightMinBit & WeightMaxBit == 0
    ensures WeightMinBit & LastBinClosedBit == 0
    ensures WeightMaxBit & LastBinClosedBit == 0
    ensures WeightMinBit | WeightMaxBit | LastBinClosedBit == KnownBits
    ensures Decode(HistoNone) == Options(false, false, false)
  {
  }
}

=== FILE: flatindex.dfy ===
/**
 Row-major flattening of a per-dimension bin-index tuple into one offset of the
 output buffers, and its inverse. The last dimension varies fastest.
 */
module FlatIndexing {

  /** Every dimension has at least one bin. */
  predicate PositiveCounts(nBins: seq<int>)
  {
    forall k :: 0 <= k < |nBins| ==> nBins[k] > 0
  }

  /** `idx` is a valid bin-index tuple for the shape `nBins`. */
  predicate InShape(idx: seq<int>, nBins: seq<int>)
  {
    |idx| == |nBins| && forall k :: 0 <= k < |idx| ==> 0 <= idx[k] < nBins[k]
  }

  /** The total number of bins: the length of both output buffers. */
  function Product(nBins: seq<int>): (p: int)
    ensures PositiveCounts(nBins) ==> p > 0
    decreases |nBins|
  {
    if |nBins| == 0 then 1
    else
      var m := |nBins| - 1;
      assert PositiveCounts(nBins) ==> PositiveCounts(nBins[..m]);
      Product(nBins[..m]) * nBins[m]
  }

  /** One Horner step `a * n + i` keeps an offset below `p` below `p * n`. */
  lemma HornerBound(a: int, p: int, i: int, n: int)
    requires 0 <= a < p && 0 <= i < n
    ensures 0 <= a * n + i < p * n
  {
    assert a * n <= (p - 1) * n;
  }

  /** Division and remainder by `n` undo one Horner step. */
  lemma HornerDivMod(a: int, i: int, n: int)
    requires 0 <= a && 0 <= i < n
    ensures (a * n + i) / n == a && (a * n + i) % n == i
  {
    var off := a * n + i;
    var q, r := off / n, off % n;
    assert q * n + r == a * n + i;
    assert (q - a) * n == i - r;
    SmallMultiple(q - a, n);
  }

  /** An offset below `p * n` divided by `n` stays below `p`. */
  lemma DivBound(off: int, p: int, n: int)
    requires n > 0 && 0 <= off < p * n
    ensures 0 <= off / n < p
  {
    var q := off / n;
    assert q * n <= off;
    if q >= p {
      MulMonotone(p, q, n);
    }
  }

  /** `p <= q` is preserved by multiplying both sides by a positive `n`. */
  lemma MulMonotone(p: int, q: int, n: int)
    requires p <= q && n > 0
    ensures p * n <= q * n
  {
  }

  /** A multiple of `n` strictly between `-n` and `n` is zero. */
  lemma SmallMultiple(d: int, n: int)
    requires n > 0 && -n < d * n < n
    ensures d == 0
  {
    if d >= 1 {
      MulMonotone(1, d, n);
    } else if d <= -1 {
      MulMonotone(d, -1, n);
    }
  }

  /**
   The flat offset of a bin-index tuple, accumulated in Horner form
   (`acc * n_k + i_k` for `k = 0 .. d-1`).
   */
  function FlatIndex(idx: seq<int>, nBins: seq<int>): (r: int)
    requires |idx| == |nBins|
    ensures InShape(idx, nBins) ==> 0 <= r < Product(nBins)
    decreases |idx|
  {
    if |idx| == 0 then 0
    else
      var m := |idx| - 1;
      var a := FlatIndex(idx[..m], nBins[..m]);
      assert InShape(idx, nBins) ==> 0 <= a * nBins[m] + idx[m] < Product(nBins) by {
        if InShape(idx, nBins) {
          assert InShape(idx[..m], nBins[..m]);
          HornerBound(a, Product(nBins[..m]), idx[m], nBins[m]);
        }
      }
      a * nBins[m] + idx[m]
  }

  /** The bin-index tuple stored at flat offset `off`. */
  function Unflatten(off: int, nBins: seq<int>): (idx: seq<int>)
    requires PositiveCounts(nBins) && 0 <= off < Product(nBins)
    ensures InShape(idx, nBins)
    decreases |nBins|
  {
    if |nBins| == 0 then []
    else
      var m := |nBins| - 1;
      assert PositiveCounts(nBins[..m]);
      DivBound(off, Product(nBins[..m]), nBins[m]);
      Unflatten(off / nBins[m], nBins[..m]) + [off % nBins[m]]
  }

  /** An offset is recovered from its quotient and remainder by `n`. */
  lemma Recompose(off: int, n: int, q: int)
    requires n > 0 && q == off / n
    ensures q * n + off % n == off
  {
  }

  /** Every offset of the output buffers is the flat offset of some bin-index tuple. */
  lemma {:induction false} FlatIndexUnflatten(off: int, nBins: seq<int>)
    requires PositiveCounts(nBins) && 0 <= off < Product(nBins)
    ensures FlatIndex(Unflatten(off, nBins), nBins) == off
    decreases |nBins|
  {
    if |nBins| > 0 {
      var m := |nBins| - 1;
      assert PositiveCounts(nBins[..m]);
      DivBound(off, Product(nBins[..m]), nBins[m]);
      var prefix := Unflatten(off / nBins[m], nBins[..m]);
      assert Unflatten(off, nBins) == prefix + [off % nBins[m]];
      FlatIndexUnflatten(off / nBins[m], nBins[..m]);
      FlatIndexExtend(prefix, off % nBins[m], nBins);
      assert nBins[..m + 1] == nBins;
      Recompose(off, nBins[m], FlatIndex(prefix, nBins[..m]));
    }
  }

  /** Unflattening the flat offset of an in-shape bin-index tuple gives the tuple back. */
  lemma {:induction false} UnflattenFlatIndex(idx: seq<int>, nBins: seq<int>)
    requires PositiveCounts(nBins) && InShape(idx, nBins)
    ensures Unflatten(FlatIndex(idx, nBins), nBins) == idx
    decreases |nBins|
  {
    if |nBins| > 0 {
      var m := |nBins| - 1;
      assert PositiveCounts(nBins[..m]) && InShape(idx[..m], nBins[..m]);
      var a := FlatIndex(idx[..m], nBins[..m]);
      HornerDivMod(a, idx[m], nBins[m]);
      UnflattenFlatIndex(idx[..m], nBins[..m]);
      assert idx == idx[..m] + [idx[m]];
    }
  }

  /** The flat offset is injective on in-shape tuples. */
  lemma FlatIndexInjective(i: seq<int>, j: seq<int>, nBins: seq<int>)
    requires PositiveCounts(nBins) && InShape(i, nBins) && InShape(j, nBins)
    requires FlatIndex(i, nBins) == FlatIndex(j, nBins)
    ensures i == j
  {
    UnflattenFlatIndex(i, nBins);
    UnflattenFlatIndex(j, nBins);
  }

  /** One more dimension extends the flat offset over the leading dimensions by one Horner step. */
  lemma FlatIndexExtend(idx: seq<int>, b: int, nBins: seq<int>)
    requires |idx| < |nBins|
    ensures FlatIndex(idx + [b], nBins[..|idx| + 1]) == FlatIndex(idx, nBins[..|idx|]) * nBins[|idx|] + b
  {
    assert (idx + [b])[..|idx|] == idx;
    assert nBins[..|idx| + 1][..|idx|] == nBins[..|idx|];
  }

  /**
   Raising the bin of dimension `k` by one moves the flat offset by the product of
   the bin counts of the later dimensions; for the last dimension that is 1, so the
   last dimension varies fastest.
   */
  lemma FlatIndexStride(idx: seq<int>, nBins: seq<int>, k: nat)
    requires |idx| == |nBins| && k < |idx|
    ensures FlatIndex(idx[k := idx[k] + 1], nBins) == FlatIndex(idx, nBins) + Product(nBins[k + 1..])
    ensures k == |idx| - 1 ==> Product(nBins[k + 1..]) == 1
  {
    StrideStep(idx, idx[k := idx[k] + 1], nBins, k);
    assert k == |idx| - 1 ==> nBins[k + 1..] == [];
  }

  /**
   Two tuples that agree everywhere except in dimension `k`, where the second is one
   higher, have flat offsets one stride `Product(nBins[k + 1..])` apart.
   */
  lemma {:induction false} StrideStep(lower: seq<int>, upper: seq<int>, nBins: seq<int>, k: nat)
    requires |lower| == |upper| == |nBins| && k < |lower|
    requires upper[k] == lower[k] + 1
    requires forall d :: 0 <= d < |lower| && d != k ==> upper[d] == lower[d]
    ensures FlatIndex(upper, nBins) == FlatIndex(lower, nBins) + Product(nBins[k + 1..])
    decreases |lower|
  {
    var m := |lower| - 1;
    if k == m {
      StrideLast(lower, upper, nBins);
    } else {
      assert forall d :: 0 <= d < m && d != k ==> upper[..m][d] == lower[..m][d];
      StrideStep(lower[..m], upper[..m], nBins[..m], k);
      var tail := nBins[k + 1..];
      assert tail[..|tail| - 1] == nBins[..m][k + 1..];
      StrideScale(FlatIndex(lower, nBins), FlatIndex(upper, nBins),
        FlatIndex(lower[..m], nBins[..m]), FlatIndex(upper[..m], nBins[..m]),
        Product(tail), Product(nBins[..m][k + 1..]), nBins[m], lower[m]);
    }
  }

  /** Tuples that differ only in the last dimension, by one, have adjacent flat offsets. */
  lemma StrideLast(lower: seq<int>, upper: seq<int>, nBins: seq<int>)
    requires |lower| == |upper| == |nBins| > 0
    requires upper[|lower| - 1] == lower[|lower| - 1] + 1
    requires upper[..|lower| - 1] == lower[..|lower| - 1]
    ensures FlatIndex(upper, nBins) == FlatIndex(lower, nBins) + Product(nBins[|lower|..])
  {
    assert nBins[|lower|..] == [];
  }

  /**
   One Horner step scales a stride: if the offsets over the leading dimensions are
   `s` apart, the offsets after the step by `n` are `s * n` apart.
   */
  lemma StrideScale(lo: int, up: int, loPrefix: int, upPrefix: int, stride: int, s: int, n: int, c: int)
    requires upPrefix == loPrefix + s
    requires lo == loPrefix * n + c && up == upPrefix * n + c
    requires stride == s * n
    ensures up == lo + stride
  {
  }
}

=== FILE: geometry.dfy ===
/**
 Uniform bins along one dimension, and the per-dimension bin indices of one sample point.
 Bin ranges are stored flat, `(min, max)` per dimension, in dimension order.
 */
module BinGeometry {
  import opened Wrappers

  /** Lower edge of dimension `k` in the flat range buffer. */
  function Lo(binRanges: seq<real>, k: nat): real
    requires 2 * k + 1 < |binRanges|
  {
    binRanges[2 * k]
  }

  /** Upper edge of dimension `k` in the flat range buffer. */
  function Hi(binRanges: seq<real>, k: nat): real
    requires 2 * k + 1 < |binRanges|
  {
    binRanges[2 * k + 1]
  }

  /** One `(min, max)` pair per dimension, every bin count positive and every range non-empty. */
  predicate ValidAxes(binRanges: seq<real>, nBins: seq<int>)
  {
    && |binRanges| == 2 * |nBins|
    && forall k :: 0 <= k < |nBins| ==> nBins[k] > 0 && Lo(binRanges, k) < Hi(binRanges, k)
  }

  /** Width of each of the `n` equal bins over `[lo, hi)`. */
  function Width(lo: real, hi: real, n: int): (w: real)
    requires n > 0 && lo < hi
    ensures w > 0.0
  {
    (hi - lo) / n as real
  }

  /**
   Reference definition of bin `k` of `n` equal-width bins over `[lo, hi)`:
   the half-open interval `[lo + k*w, lo + k*w + w)` with `w = (hi - lo) / n`.
   */
  ghost predicate InBin(x: real, lo: real, hi: real, n: int, k: int)
    requires n > 0 && lo < hi
  {
    lo + k as real * Width(lo, hi, n) <= x < lo + k as real * Width(lo, hi, n) + Width(lo, hi, n)
  }

  /**
   Whether coordinate `x` is kept along a dimension ranging over `[lo, hi]`: inside the
   half-open window `[lo, hi)`, or exactly on `hi` when the last bin is closed.
   */
  predicate InRange(x: real, lo: real, hi: real, lastClosed: bool)
  {
    lo <= x < hi || (lastClosed && x == hi)
  }

  /**
   The bin of coordinate `x`, or `None` when `x` is out of range.
   Below `lo` and above `hi` are rejected; `x == hi` is rejected unless the
   last bin is closed, in which case it falls in bin `n - 1`.
   */
  function BinIndex(x: real, lo: real, hi: real, n: int, lastClosed: bool): (r: Option<int>)
    requires n > 0 && lo < hi
    ensures r.Some? <==> InRange(x, lo, hi, lastClosed)
    ensures r.Some? ==> 0 <= r.value < n
    ensures r.Some? && x < hi ==> InBin(x, lo, hi, n, r.value)
    ensures x == hi && lastClosed ==> r == Some(n - 1)
  {
    if x < lo then None
    else if x >= hi then (if lastClosed && x == hi then Some(n - 1) else None)
    else
      var k := ((x - lo) * n as real / (hi - lo)).Floor;
      FloorIsBin(x, lo, hi, n);
      Some(k)
  }

  /** `a <= b` is preserved by multiplying both sides by a positive factor. */
  lemma MulLeq(a: real, b: real, c: real)
    requires a <= b && c > 0.0
    ensures a * c <= b * c
  {
  }

  /** `a < b` is preserved by multiplying both sides by a positive factor. */
  lemma MulLess(a: real, b: real, c: real)
    requires a < b && c > 0.0
    ensures a * c < b * c
  {
  }

  /** Multiplying `a + 1` by `w` adds one more `w`. */
  lemma MulSucc(a: real, w: real)
    ensures (a + 1.0) * w == a * w + w
  {
  }

  /** Chains an equality, a strict inequality and an equality. */
  lemma LessChain(a: real, b: real, c: real, d: real)
    requires a == b && b < c && c == d
    ensures a < d
  {
  }

  /** Scaling `u` by `nr / d` and back by `d / nr` gives `u` again. */
  lemma ScaleBack(u: real, nr: real, d: real)
    requires nr > 0.0 && d > 0.0
    ensures (u * nr / d) * (d / nr) == u
  {
    calc {
      (u * nr / d) * (d / nr);
      ((u * nr) / d) * d / nr;
      (u * nr) / nr;
      u;
    }
  }

  /** The scaled offset of a coordinate inside `[lo, hi)` lies in `[0, n)`. */
  lemma ScaledBounds(u: real, nr: real, d: real)
    requires nr > 0.0 && d > 0.0 && 0.0 <= u < d
    ensures 0.0 <= u * nr / d < nr
  {
    MulLess(u, d, nr / d);
    assert d * (nr / d) == nr;
    assert u * nr / d == u * (nr / d);
    assert 0.0 <= u * (nr / d);
  }

  /** If `t` scales back to `u` by `w`, then `u` lies between the multiples of `w` bracketing `t`. */
  lemma FloorBracket(u: real, w: real, t: real, kr: real)
    requires w > 0.0 && t * w == u && kr <= t < kr + 1.0
    ensures kr * w <= u < kr * w + w
  {
    MulLeq(kr, t, w);
    MulLess(t, kr + 1.0, w);
    MulSucc(kr, w);
    LessChain(u, t * w, (kr + 1.0) * w, kr * w + w);
  }

  /** The floor of the scaled offset `(x - lo) * n / (hi - lo)` is the bin holding `x`. */
  lemma FloorIsBin(x: real, lo: real, hi: real, n: int)
    requires n > 0 && lo <= x < hi
    ensures var k := ((x - lo) * n as real / (hi - lo)).Floor;
      0 <= k < n && InBin(x, lo, hi, n, k)
  {
    ScaledBounds(x - lo, n as real, hi - lo);
    ScaleBack(x - lo, n as real, hi - lo);
    FloorBracket(x - lo, Width(lo, hi, n), (x - lo) * n as real / (hi - lo),
      ((x - lo) * n as real / (hi - lo)).Floor as real);
  }

  /** A coordinate inside bin `j` lies below the lower edge of any later bin `k`. */
  lemma BelowLaterBin(x: real, lo: real, w: real, j: int, k: int)
    requires j < k && w > 0.0
    requires x < lo + j as real * w + w
    ensures x < lo + k as real * w
  {
    MulLeq(j as real + 1.0, k as real, w);
    MulSucc(j as real, w);
  }

  /** A coordinate lies in at most one bin: the bins of one dimension do not overlap. */
  lemma BinUnique(x: real, lo: real, hi: real, n: int, j: int, k: int)
    requires n > 0 && lo < hi
    requires InBin(x, lo, hi, n, j) && InBin(x, lo, hi, n, k)
    ensures j == k
  {
    if j < k {
      BelowLaterBin(x, lo, Width(lo, hi, n), j, k);
    } else if k < j {
      BelowLaterBin(x, lo, Width(lo, hi, n), k, j);
    }
  }

  /** The bin of the `k`-th coordinate of a sample point along dimension `k`. */
  function AxisBin(coords: seq<real>, binRanges: seq<real>, nBins: seq<int>, lastClosed: bool, k: nat): Option<int>
    requires |coords| == |nBins| && ValidAxes(binRanges, nBins) && k < |coords|
  {
    BinIndex(coords[k], Lo(binRanges, k), Hi(binRanges, k), nBins[k], lastClosed)
  }

  /**
   The per-dimension bin indices of one sample point, or `None` as soon as one
   coordinate is out of range: exclusion is for the whole point, not per dimension.
   */
  function BinIndices(coords: seq<real>, binRanges: seq<real>, nBins: seq<int>, lastClosed: bool): (r: Option<seq<int>>)
    requires |coords| == |nBins| && ValidAxes(binRanges, nBins)
    ensures r.Some? <==> forall k :: 0 <= k < |coords| ==> AxisBin(coords, binRanges, nBins, lastClosed, k).Some?
    ensures r.Some? ==> |r.value| == |coords|
    ensures r.Some? ==> forall k :: 0 <= k < |coords| ==> AxisBin(coords, binRanges, nBins, lastClosed, k) == Some(r.value[k])
    decreases |coords|
  {
    if |coords| == 0 then Some([])
    else
      var m := |coords| - 1;
      assert forall k :: 0 <= k < m ==>
        AxisBin(coords[..m], binRanges[..2 * m], nBins[..m], lastClosed, k) == AxisBin(coords, binRanges, nBins, lastClosed, k);
      match BinIndices(coords[..m], binRanges[..2 * m], nBins[..m], lastClosed)
      case None => None
      case Some(prefix) =>
        match AxisBin(coords, binRanges, nBins, lastClosed, m)
        case None => None
        case Some(i) => Some(prefix + [i])
  }

  /** A sample point has bin indices exactly when every one of its coordinates is in range along its dimension. */
  lemma BinIndicesInRange(coords: seq<real>, binRanges: seq<real>, nBins: seq<int>, lastClosed: bool)
    requires |coords| == |nBins| && ValidAxes(binRanges, nBins)
    ensures BinIndices(coords, binRanges, nBins, lastClosed).Some? <==>
      forall k :: 0 <= k < |coords| ==> InRange(coords[k], Lo(binRanges, k), Hi(binRanges, k), lastClosed)
  {
    assert forall k :: 0 <= k < |coords| ==>
      (AxisBin(coords, binRanges, nBins, lastClosed, k).Some?
       <==> InRange(coords[k], Lo(binRanges, k), Hi(binRanges, k), lastClosed));
  }

  /**
   When the first `k` coordinates have bin tuple `bins` and coordinate `k` has bin `bin`,
   the first `k + 1` coordinates have bin tuple `bins + [bin]`.
   */
  lemma BinIndicesExtend(coords: seq<real>, binRanges: seq<real>, nBins: seq<int>, lastClosed: bool, k: nat, bins: seq<int>, bin: int)
    requires |coords| == |nBins| && ValidAxes(binRanges, nBins) && k < |coords| && |bins| == k
    requires BinIndices(coords[..k], binRanges[..2 * k], nBins[..k], lastClosed) == Some(bins)
    requires BinIndex(coords[k], binRanges[2 * k], binRanges[2 * k + 1], nBins[k], lastClosed) == Some(bin)
    ensures BinIndices(coords[..k + 1], binRanges[..2 * (k + 1)], nBins[..k + 1], lastClosed) == Some(bins + [bin])
  {
    assert coords[..k + 1][..k] == coords[..k];
    assert binRanges[..2 * (k + 1)] == binRanges[..2 * k + 2];
    assert binRanges[..2 * k + 2][..2 * k] == binRanges[..2 * k];
    assert nBins[..k + 1][..k] == nBins[..k];
    assert AxisBin(coords[..k + 1], binRanges[..2 * k + 2], nBins[..k + 1], lastClosed, k)
        == AxisBin(coords, binRanges, nBins, lastClosed, k) == Some(bin);
  }
}

=== FILE: kernel.dfy ===
/**
 The entry point as an imperative kernel: one pass over the samples that updates
 the caller's count and cumulated-weight arrays in place. The nine storage-type
 instantiations of the interface share this one algorithm.
 */
module Kernel {
  import opened Wrappers
  import opened HistoFlags
  import opened BinGeometry
  import opened FlatIndexing
  import opened Accumulation

  /** The bin of coordinate `x` along one dimension, or -1 when it is out of range. */
  method AxisBinIndex(x: real, lo: real, hi: real, n: int, lastClosed: bool) returns (bin: int)
    requires n > 0 && lo < hi
    ensures bin == -1 <==> !InRange(x, lo, hi, lastClosed)
    ensures bin != -1 ==> BinIndex(x, lo, hi, n, lastClosed) == Some(bin)
  {
    if x < lo {
      return -1;
    }
    if x >= hi {
      if lastClosed && x == hi {
        return n - 1;
      }
      return -1;
    }
    FloorIsBin(x, lo, hi, n);
    bin := ((x - lo) * n as real / (hi - lo)).Floor;
  }

  /** A coordinate out of range along one dimension leaves the point without a bin tuple. */
  lemma RejectedAxis(c: seq<real>, binRanges: seq<real>, nBins: seq<int>, lastClosed: bool, k: nat)
    requires |c| == |nBins| && ValidAxes(binRanges, nBins) && k < |c|
    requires !InRange(c[k], binRanges[2 * k], binRanges[2 * k + 1], lastClosed)
    ensures BinIndices(c, binRanges, nBins, lastClosed).None?
  {
    assert AxisBin(c, binRanges, nBins, lastClosed, k).None?;
  }

  /**
   The flat bin of the point `c`, built dimension by dimension in Horner form, or -1
   as soon as one coordinate is out of range.
   */
  method ResolveBin(c: seq<real>, binRanges: seq<real>, nBins: seq<int>, lastClosed: bool) returns (offset: int)
    requires |c| == |nBins| && ValidAxes(binRanges, nBins)
    ensures offset == -1 <==> BinIndices(c, binRanges, nBins, lastClosed).None?
    ensures offset != -1 ==> offset == FlatIndex(BinIndices(c, binRanges, nBins, lastClosed).value, nBins)
    ensures offset != -1 ==> 0 <= offset < Product(nBins)
  {
    var acc := 0;
    var k := 0;
    ghost var bins: seq<int> := [];
    assert c[..0] == [] && binRanges[..0] == [] && nBins[..0] == [];
    while k < |c|
      invariant 0 <= k <= |c|
      invariant BinIndices(c[..k], binRanges[..2 * k], nBins[..k], lastClosed) == Some(bins)
      invariant |bins| == k && acc == FlatIndex(bins, nBins[..k])
    {
      var bin := AxisBinIndex(c[k], binRanges[2 * k], binRanges[2 * k + 1], nBins[k], lastClosed);
      if bin == -1 {
        RejectedAxis(c, binRanges, nBins, lastClosed, k);
        return -1;
      }
      BinIndicesExtend(c, binRanges, nBins, lastClosed, k, bins, bin);
      FlatIndexExtend(bins, bin, nBins);
      acc := acc * nBins[k] + bin;
      bins := bins + [bin];
      k := k + 1;
    }
    assert c[..k] == c && binRanges[..2 * k] == binRanges && nBins[..k] == nBins;
    assert InShape(bins, nBins);
    offset := acc;
  }

  /**
   What the kernel does with sample `i`: slice its coordinates out of the flat
   buffer, resolve its flat bin, then test its weight against the active bounds.
   */
  method PlaceSample(req: Request, i: nat) returns (p: Placement)
    requires ValidRequest(req) && i < req.nElem
    ensures p == Place(req, i)
  {
    var lastClosed := HasBit(req.flags, LastBinClosedBit);
    assert lastClosed == LastClosed(req);
    MulMonotone(i + 1, req.nElem, req.nDim);
    var c := req.sample[i * req.nDim .. (i + 1) * req.nDim];
    assert c == Coords(req, i);
    var offset := ResolveBin(c, req.binRanges, req.nBins, lastClosed);
    if offset == -1 {
      return Dropped;
    }
    var passes := req.weights.None? || WeightPasses(Decode(req.flags), req.weights.value[i], req.weightMin, req.weightMax);
    if req.policy.WholeSample? && !passes {
      return Dropped;
    }
    p := Placed(offset, if req.weights.Some? && passes then Some(req.weights.value[i]) else None);
  }

  /** Applies one placement to the caller's arrays in place. */
  method ApplyInPlace(histo: array<nat>, cumul: array<real>, p: Placement)
    requires histo.Length == cumul.Length
    requires p.Placed? ==> 0 <= p.cell < histo.Length
    modifies histo, cumul
    ensures Histo(histo[..], cumul[..]) == Apply(Histo(old(histo[..]), old(cumul[..])), p)
  {
    if p.Placed? {
      histo[p.cell] := histo[p.cell] + 1;
      if p.weight.Some? {
        cumul[p.cell] := cumul[p.cell] + p.weight.value;
      }
    }
  }

  /**
   One call of the entry point: every sample, in input order, adds 1 to the count
   cell of its bin and, when a weight buffer is given and the weight passes the
   active bounds, its weight to the same cell of the cumulated buffer. The arrays
   are added to, never reset.
   */
  method HistogramNd(
    sample: seq<real>, weights: Option<seq<real>>, nDim: int, nElem: int,
    binRanges: seq<real>, nBins: seq<int>, histo: array<nat>, cumul: array<real>,
    optFlags: bv32, weightMin: real, weightMax: real, policy: FilterPolicy)
    requires ValidRequest(Request(sample, weights, nDim, nElem, binRanges, nBins, optFlags, weightMin, weightMax, policy))
    requires histo.Length == Product(nBins) && cumul.Length == Product(nBins)
    modifies histo, cumul
    ensures var req := Request(sample, weights, nDim, nElem, binRanges, nBins, optFlags, weightMin, weightMax, policy);
      Histo(histo[..], cumul[..]) == Histogram(req, Histo(old(histo[..]), old(cumul[..])))
  {
    var req := Request(sample, weights, nDim, nElem, binRanges, nBins, optFlags, weightMin, weightMax, policy);
    ghost var start := Histo(histo[..], cumul[..]);
    ghost var ps := Placements(req);
    var i := 0;
    assert ps[..0] == [];
    while i < nElem
      invariant 0 <= i <= nElem
      invariant Histo(histo[..], cumul[..]) == Run(req, start, i)
    {
      var p := PlaceSample(req, i);
      ApplyInPlace(histo, cumul, p);
      assert ps[..i + 1][..i] == ps[..i];
      i := i + 1;
    }
  }
}

=== FILE: props.dfy ===
/**
 Properties of replaying placements and of a whole call: the per-cell meaning of
 the accumulated buffers, accumulation across calls and totals.
 */
module HistogramProps {
  import opened FlatIndexing
  import opened Accumulation

  /** Freshly zeroed output buffers of the right shape. */
  function Zero(req: Request): Histo
    requires ValidRequest(req)
  {
    assert PositiveCounts(req.nBins);
    var p := Product(req.nBins);
    Histo(seq(p, _ => 0), seq(p, _ => 0.0))
  }

  /** Reference count of cell `j`: the number of placements into it. */
  function Hits(ps: seq<Placement>, j: int): nat
  {
    |set i | 0 <= i < |ps| && ps[i].Placed? && ps[i].cell == j|
  }

  /** The number of placements that are not dropped. */
  function NumPlaced(ps: seq<Placement>): nat
  {
    |set i | 0 <= i < |ps| && ps[i].Placed?|
  }

  /** Reference cumulated weight of cell `j`: the sum of the weights placed into it. */
  function WeightAt(ps: seq<Placement>, j: int): real
    decreases |ps|
  {
    if |ps| == 0 then 0.0
    else
      var m := |ps| - 1;
      WeightAt(ps[..m], j) + (if ps[m].Placed? && ps[m].cell == j && ps[m].weight.Some? then ps[m].weight.value else 0.0)
  }

  /** Sum of a count buffer. */
  function Sum(s: seq<nat>): nat
  {
    if |s| == 0 then 0 else Sum(s[..|s| - 1]) + s[|s| - 1]
  }

  /** Adding 1 to one cell adds 1 to the sum. */
  lemma {:induction false} SumIncrement(s: seq<nat>, o: int)
    requires 0 <= o < |s|
    ensures Sum(s[o := s[o] + 1]) == Sum(s) + 1
    decreases |s|
  {
    var t := s[o := s[o] + 1];
    var m := |s| - 1;
    if o < m {
      assert t[..m] == s[..m][o := s[o] + 1];
      SumIncrement(s[..m], o);
    } else {
      assert t[..m] == s[..m];
    }
  }

  /** The last placement adds at most itself to the count of cell `j`. */
  lemma HitsLast(ps: seq<Placement>, j: int)
    requires |ps| > 0
    ensures var m := |ps| - 1;
      Hits(ps, j) == Hits(ps[..m], j) + (if ps[m].Placed? && ps[m].cell == j then 1 else 0)
  {
    var m := |ps| - 1;
    var before := set i | 0 <= i < m && ps[..m][i].Placed? && ps[..m][i].cell == j;
    var after := set i | 0 <= i < |ps| && ps[i].Placed? && ps[i].cell == j;
    if ps[m].Placed? && ps[m].cell == j {
      assert after == before + {m};
    } else {
      assert after == before;
    }
  }

  /** The last placement adds at most itself to the number of placed samples. */
  lemma NumPlacedLast(ps: seq<Placement>)
    requires |ps| > 0
    ensures var m := |ps| - 1;
      NumPlaced(ps) == NumPlaced(ps[..m]) + (if ps[m].Placed? then 1 else 0)
  {
    var m := |ps| - 1;
    var before := set i | 0 <= i < m && ps[..m][i].Placed?;
    var after := set i | 0 <= i < |ps| && ps[i].Placed?;
    if ps[m].Placed? {
      assert after == before + {m};
    } else {
      assert after == before;
    }
  }

  /** At most every sample is placed, and all are exactly when none is dropped. */
  lemma {:induction false} NumPlacedBound(ps: seq<Placement>)
    ensures NumPlaced(ps) <= |ps|
    ensures NumPlaced(ps) == |ps| <==> forall i :: 0 <= i < |ps| ==> ps[i].Placed?
    decreases |ps|
  {
    if |ps| > 0 {
      var m := |ps| - 1;
      NumPlacedLast(ps);
      NumPlacedBound(ps[..m]);
      if forall i :: 0 <= i < |ps| ==> ps[i].Placed? {
        assert forall i :: 0 <= i < m ==> ps[..m][i].Placed?;
      }
    }
  }

  /**
   Replaying placements agrees cell by cell with the reference count: each count
   cell has grown by the number of placements into it.
   */
  lemma {:induction false} ReplayCountAt(out: Histo, ps: seq<Placement>, j: int)
    requires |out.counts| == |out.cumul| && Fits(ps, |out.counts|) && 0 <= j < |out.counts|
    ensures Replay(out, ps).counts[j] == out.counts[j] + Hits(ps, j)
    decreases |ps|
  {
    if |ps| > 0 {
      var m := |ps| - 1;
      ReplayCountAt(out, ps[..m], j);
      HitsLast(ps, j);
    }
  }

  /**
   Replaying placements agrees cell by cell with the reference cumulation: each
   cumulated cell has grown by the weights placed into it.
   */
  lemma {:induction false} ReplayCumulAt(out: Histo, ps: seq<Placement>, j: int)
    requires |out.counts| == |out.cumul| && Fits(ps, |out.counts|) && 0 <= j < |out.cumul|
    ensures Replay(out, ps).cumul[j] == out.cumul[j] + WeightAt(ps, j)
    decreases |ps|
  {
    if |ps| > 0 {
      var m := |ps| - 1;
      ReplayCumulAt(out, ps[..m], j);
    }
  }

  /** The counts grow in total by exactly the number of placed samples. */
  lemma {:induction false} ReplaySum(out: Histo, ps: seq<Placement>)
    requires |out.counts| == |out.cumul| && Fits(ps, |out.counts|)
    ensures Sum(Replay(out, ps).counts) == Sum(out.counts) + NumPlaced(ps)
    decreases |ps|
  {
    if |ps| > 0 {
      var m := |ps| - 1;
      ReplaySum(out, ps[..m]);
      NumPlacedLast(ps);
      var prev := Replay(out, ps[..m]);
      if ps[m].Placed? {
        SumIncrement(prev.counts, ps[m].cell);
      }
    }
  }

  /** Sum of a cumulated-weight buffer. */
  function SumReal(s: seq<real>): real
  {
    if |s| == 0 then 0.0 else SumReal(s[..|s| - 1]) + s[|s| - 1]
  }

  /** The total weight carried by placements `ps`. */
  function PlacedWeight(ps: seq<Placement>): real
  {
    if |ps| == 0 then 0.0
    else
      var p := ps[|ps| - 1];
      PlacedWeight(ps[..|ps| - 1]) + (if p.Placed? && p.weight.Some? then p.weight.value else 0.0)
  }

  /** Adding `v` to one cell adds `v` to the sum. */
  lemma {:induction false} SumRealAdd(s: seq<real>, o: int, v: real)
    requires 0 <= o < |s|
    ensures SumReal(s[o := s[o] + v]) == SumReal(s) + v
    decreases |s|
  {
    var t := s[o := s[o] + v];
    var m := |s| - 1;
    if o < m {
      assert t[..m] == s[..m][o := s[o] + v];
      SumRealAdd(s[..m], o, v);
    } else {
      assert t[..m] == s[..m];
    }
  }

  /** The cumulated weights grow in total by exactly the weight the placements carry. */
  lemma {:induction false} ReplayCumulSum(out: Histo, ps: seq<Placement>)
    requires |out.counts| == |out.cumul| && Fits(ps, |out.counts|)
    ensures SumReal(Replay(out, ps).cumul) == SumReal(out.cumul) + PlacedWeight(ps)
    decreases |ps|
  {
    if |ps| > 0 {
      var m := |ps| - 1;
      ReplayCumulSum(out, ps[..m]);
      var prev := Replay(out, ps[..m]);
      if ps[m].Placed? && ps[m].weight.Some? {
        SumRealAdd(prev.cumul, ps[m].cell, ps[m].weight.value);
      }
    }
  }
}

=== FILE: samples.dfy ===
/**
 What happens to one sample point: which coordinates reject it, which bin it
 lands in, the upper-edge rule and the weight filter.
 */
module SampleProps {
  import opened Wrappers
  import opened HistoFlags
  import opened BinGeometry
  import opened FlatIndexing
  import opened Accumulation

  /**
   Without a weight filter that can drop samples (no weight buffer, or the
   `CumulOnly` reading), a sample is counted exactly when it is in range.
   */
  lemma CountedIffInRange(req: Request, i: nat)
    requires ValidRequest(req) && i < req.nElem
    requires req.weights.None? || req.policy.CumulOnly?
    ensures Counted(req, i) <==> SampleInRange(req, i)
  {
  }

  /**
   The cell of a binned sample is the row-major cell of its per-dimension bins:
   unflattened, its `d`-th index is the bin whose half-open interval holds
   coordinate `d`, or the last bin when the coordinate sits on the closed upper edge.
   */
  lemma OffsetIsBin(req: Request, i: nat)
    requires ValidRequest(req) && i < req.nElem && Offset(req, i).Some?
    ensures var idx := Unflatten(Offset(req, i).value, req.nBins);
      && |idx| == req.nDim
      && forall d :: 0 <= d < req.nDim ==>
        var x, lo, hi := Coords(req, i)[d], Lo(req.binRanges, d), Hi(req.binRanges, d);
        && 0 <= idx[d] < req.nBins[d]
        && (x < hi ==> InBin(x, lo, hi, req.nBins[d], idx[d]))
        && (x == hi ==> idx[d] == req.nBins[d] - 1)
  {
    var c := Coords(req, i);
    var bins := BinIndices(c, req.binRanges, req.nBins, LastClosed(req)).value;
    assert InShape(bins, req.nBins);
    UnflattenFlatIndex(bins, req.nBins);
    assert Unflatten(Offset(req, i).value, req.nBins) == bins;
    assert forall d :: 0 <= d < req.nDim ==> AxisBin(c, req.binRanges, req.nBins, LastClosed(req), d) == Some(bins[d]);
  }

  /** A sample with a coordinate below its dimension's minimum is dropped from both buffers. */
  lemma BelowMinDropped(req: Request, i: nat, d: nat)
    requires ValidRequest(req) && i < req.nElem && d < req.nDim
    requires Coords(req, i)[d] < Lo(req.binRanges, d)
    ensures Offset(req, i).None? && Place(req, i) == Dropped
  {
  }

  /** A sample with a coordinate above its dimension's maximum is dropped from both buffers. */
  lemma AboveMaxDropped(req: Request, i: nat, d: nat)
    requires ValidRequest(req) && i < req.nElem && d < req.nDim
    requires Coords(req, i)[d] > Hi(req.binRanges, d)
    ensures Offset(req, i).None? && Place(req, i) == Dropped
  {
  }

  /**
   A coordinate exactly on its dimension's maximum drops the sample unless
   `HISTO_LAST_BIN_CLOSED` is set; with it set, the sample is binned as soon as
   its other coordinates are in range, and lands in the last bin of that dimension.
   */
  lemma UpperEdge(req: Request, i: nat, d: nat)
    requires ValidRequest(req) && i < req.nElem && d < req.nDim
    requires Coords(req, i)[d] == Hi(req.binRanges, d)
    ensures !LastClosed(req) ==> Offset(req, i).None? && Place(req, i) == Dropped
    ensures LastClosed(req) ==>
      (Offset(req, i).Some? <==>
        forall e :: 0 <= e < req.nDim && e != d ==>
          InRange(Coords(req, i)[e], Lo(req.binRanges, e), Hi(req.binRanges, e), true))
    ensures LastClosed(req) && Offset(req, i).Some? ==>
      Unflatten(Offset(req, i).value, req.nBins)[d] == req.nBins[d] - 1
  {
    if Offset(req, i).Some? {
      OffsetIsBin(req, i);
    }
  }

  /**
   A weight below an active minimum or above an active maximum never reaches the
   cumulated buffer. Under `WholeSample` the sample is dropped altogether; under
   `CumulOnly` it is still counted whenever it is in range.
   */
  lemma FilteredWeight(req: Request, i: nat)
    requires ValidRequest(req) && i < req.nElem && req.weights.Some?
    requires var o, w := Decode(req.flags), req.weights.value[i];
      (o.weightMin && w < req.weightMin) || (o.weightMax && w > req.weightMax)
    ensures !Cumulated(req, i)
    ensures Place(req, i).Placed? ==> Place(req, i).weight.None?
    ensures req.policy.WholeSample? ==> Place(req, i) == Dropped
    ensures req.policy.CumulOnly? ==> (Place(req, i).Placed? <==> Offset(req, i).Some?)
  {
    WeightBounds(Decode(req.flags), req.weights.value[i], req.weightMin, req.weightMax, 0.0, 0.0);
  }

  /** A weight within every active bound is cumulated whenever the sample is in range. */
  lemma AcceptedWeight(req: Request, i: nat)
    requires ValidRequest(req) && i < req.nElem && req.weights.Some?
    requires WeightAccepted(req, i) && Offset(req, i).Some?
    ensures Place(req, i) == Placed(Offset(req, i).value, Some(req.weights.value[i]))
  {
  }

  /** Without a weight buffer a sample is counted exactly when it is in range, and carries no weight. */
  lemma NoWeightBuffer(req: Request, i: nat)
    requires ValidRequest(req) && i < req.nElem && req.weights.None?
    ensures Place(req, i).Placed? <==> SampleInRange(req, i)
    ensures Place(req, i).Placed? ==> Place(req, i).weight.None?
  {
  }
}

=== FILE: scenarios.dfy ===
/**
 Concrete one-dimensional calls: two bins over `[0, 10)`, unit weights.
 */
module Scenarios {
  import opened Wrappers
  import opened HistoFlags
  import opened BinGeometry
  import opened FlatIndexing
  import opened Accumulation
  import opened HistogramProps

  /** The one-dimensional call on `sample` with unit weights, two bins over `[0, 10]`, option bits `flags`
      and weight bounds `[0, 1]` that every unit weight passes. */
  function OneDim(sample: seq<real>, flags: bv32): Request
  {
    Request(sample, Some(seq(|sample|, _ => 1.0)), 1, |sample|, [0.0, 10.0], [2], flags, 0.0, 1.0, CumulOnly)
  }

  /** Where one coordinate of the two-bin call lands. */
  lemma OneDimPlace(sample: seq<real>, flags: bv32, i: nat)
    requires i < |sample|
    ensures ValidRequest(OneDim(sample, flags))
    ensures var req, x := OneDim(sample, flags), sample[i];
      && (0.0 <= x < 5.0 ==> Place(req, i) == Placed(0, Some(1.0)))
      && (5.0 <= x < 10.0 ==> Place(req, i) == Placed(1, Some(1.0)))
      && (x == 10.0 && HasBit(flags, LastBinClosedBit) ==> Place(req, i) == Placed(1, Some(1.0)))
      && (x == 10.0 && !HasBit(flags, LastBinClosedBit) ==> Place(req, i) == Dropped)
  {
    var req, x := OneDim(sample, flags), sample[i];
    var lc := LastClosed(req);
    var c := Coords(req, i);
    assert c == [x];
    assert c[..0] == [] && req.binRanges[..0] == [] && req.nBins[..0] == [];
    assert req.weights.value[i] == 1.0;
    WeightBounds(Decode(flags), 1.0, 0.0, 1.0, 0.0, 1.0);
    assert WeightPasses(Decode(flags), 1.0, 0.0, 1.0);
    if InRange(x, 0.0, 10.0, lc) {
      var b := BinIndex(x, 0.0, 10.0, 2, lc).value;
      assert AxisBin(c, req.binRanges, req.nBins, lc, 0) == Some(b);
      var r := BinIndices(c, req.binRanges, req.nBins, lc);
      assert r.Some? && |r.value| == 1 && r.value[0] == b;
      assert r.value == [b];
      assert FlatIndex([b], [2]) == b by {
        assert [b][..0] == [] && [2][..0] == [];
      }
      assert Offset(req, i) == Some(b);
      assert Place(req, i) == Placed(b, Some(1.0));
      if x < 10.0 {
        if x < 5.0 {
          assert InBin(x, 0.0, 10.0, 2, 0);
          BinUnique(x, 0.0, 10.0, 2, 0, b);
        } else {
          assert InBin(x, 0.0, 10.0, 2, 1);
          BinUnique(x, 0.0, 10.0, 2, 1, b);
        }
      }
    } else {
      assert AxisBin(c, req.binRanges, req.nBins, lc, 0).None?;
    }
  }

  /** Replaying the last placement of a sequence after the others. */
  lemma ReplayLast(out: Histo, ps: seq<Placement>, p: Placement)
    requires |out.counts| == |out.cumul| && Fits(ps + [p], |out.counts|)
    ensures Replay(out, ps + [p]) == Apply(Replay(out, ps), p)
  {
    assert (ps + [p])[..|ps|] == ps;
  }

  /** A unit-weight sample placed into one of two cells adds 1 to that cell of both buffers. */
  lemma ApplyUnit(a: nat, b: nat, x: real, y: real, cell: int)
    requires cell == 0 || cell == 1
    ensures Apply(Histo([a, b], [x, y]), Placed(cell, Some(1.0))) ==
      if cell == 0 then Histo([a + 1, b], [x + 1.0, y]) else Histo([a, b + 1], [x, y + 1.0])
  {
    if cell == 0 {
      assert [a, b][0 := a + 1] == [a + 1, b] && [x, y][0 := x + 1.0] == [x + 1.0, y];
    } else {
      assert [a, b][1 := b + 1] == [a, b + 1] && [x, y][1 := y + 1.0] == [x, y + 1.0];
    }
  }

  /** Appending a placement that fits keeps every placement fitting. */
  lemma FitsSnoc(ps: seq<Placement>, p: Placement, size: int)
    requires Fits(ps, size) && (p.Placed? ==> 0 <= p.cell < size)
    ensures Fits(ps + [p], size)
  {
    forall i | 0 <= i < |ps + [p]| && (ps + [p])[i].Placed?
      ensures 0 <= (ps + [p])[i].cell < size
    {
      if i < |ps| {
        assert (ps + [p])[i] == ps[i];
      }
    }
  }

  /** One more unit-weight placement into a two-cell replay. */
  lemma ReplayUnit(out: Histo, ps: seq<Placement>, a: nat, b: nat, x: real, y: real, cell: int)
    requires |out.counts| == 2 && |out.cumul| == 2 && (cell == 0 || cell == 1) && Fits(ps, 2)
    requires Replay(out, ps) == Histo([a, b], [x, y])
    ensures Fits(ps + [Placed(cell, Some(1.0))], 2)
    ensures Replay(out, ps + [Placed(cell, Some(1.0))]) ==
      if cell == 0 then Histo([a + 1, b], [x + 1.0, y]) else Histo([a, b + 1], [x, y + 1.0])
  {
    FitsSnoc(ps, Placed(cell, Some(1.0)), 2);
    ReplayLast(out, ps, Placed(cell, Some(1.0)));
    ApplyUnit(a, b, x, y, cell);
  }

  /** Two unit-weight placements into bin 0, then three into bin 1, from zeroed two-cell buffers. */
  lemma ReplayTwoThree(z: Histo, lo: Placement, hi: Placement)
    requires z == Histo([0, 0], [0.0, 0.0]) && lo == Placed(0, Some(1.0)) && hi == Placed(1, Some(1.0))
    ensures Fits([lo, lo, hi, hi, hi], 2)
    ensures Replay(z, [lo, lo, hi, hi, hi]) == Histo([2, 3], [2.0, 3.0])
  {
    assert Replay(z, []) == Histo([0, 0], [0.0, 0.0]);
    ReplayUnit(z, [], 0, 0, 0.0, 0.0, 0);
    assert [] + [lo] == [lo];
    ReplayUnit(z, [lo], 1, 0, 1.0, 0.0, 0);
    assert [lo] + [lo] == [lo, lo];
    ReplayUnit(z, [lo, lo], 2, 0, 2.0, 0.0, 1);
    assert [lo, lo] + [hi] == [lo, lo, hi];
    ReplayUnit(z, [lo, lo, hi], 2, 1, 2.0, 1.0, 1);
    assert [lo, lo, hi] + [hi] == [lo, lo, hi, hi];
    ReplayUnit(z, [lo, lo, hi, hi], 2, 2, 2.0, 2.0, 1);
    assert [lo, lo, hi, hi] + [hi] == [lo, lo, hi, hi, hi];
  }

  /** Five in-range samples: 0.0 and 2.5 fall in bin 0; 5.0 starts the half-open bin 1, which also takes 7.5 and 9.99. */
  lemma FivePlacements(flags: bv32)
    ensures ValidRequest(OneDim([0.0, 2.5, 5.0, 7.5, 9.99], flags))
    ensures var lo, hi := Placed(0, Some(1.0)), Placed(1, Some(1.0));
      Placements(OneDim([0.0, 2.5, 5.0, 7.5, 9.99], flags)) == [lo, lo, hi, hi, hi]
  {
    var sample := [0.0, 2.5, 5.0, 7.5, 9.99];
    var req := OneDim(sample, flags);
    var lo, hi := Placed(0, Some(1.0)), Placed(1, Some(1.0));
    forall i | 0 <= i < 5
      ensures Place(req, i) == (if i < 2 then lo else hi)
    {
      OneDimPlace(sample, flags, i);
    }
  }

  /** Every sample of the five is counted, two into bin 0 and three into bin 1. */
  lemma FiveSamples(flags: bv32)
    ensures var req := OneDim([0.0, 2.5, 5.0, 7.5, 9.99], flags);
      ValidRequest(req) && Histogram(req, Zero(req)) == Histo([2, 3], [2.0, 3.0])
  {
    var req := OneDim([0.0, 2.5, 5.0, 7.5, 9.99], flags);
    FivePlacements(flags);
    var ps := Placements(req);
    assert ps[..5] == ps;
    assert Zero(req) == Histo([0, 0], [0.0, 0.0]);
    ReplayTwoThree(Zero(req), Placed(0, Some(1.0)), Placed(1, Some(1.0)));
  }

  /** The five samples plus one exactly on the upper edge, which lands in the last bin only when that bin is closed. */
  lemma EdgePlacements(flags: bv32)
    ensures ValidRequest(OneDim([0.0, 2.5, 5.0, 7.5, 9.99, 10.0], flags))
    ensures var lo, hi := Placed(0, Some(1.0)), Placed(1, Some(1.0));
      var edge := if HasBit(flags, LastBinClosedBit) then hi else Dropped;
      Placements(OneDim([0.0, 2.5, 5.0, 7.5, 9.99, 10.0], flags)) == [lo, lo, hi, hi, hi] + [edge]
  {
    var sample := [0.0, 2.5, 5.0, 7.5, 9.99, 10.0];
    var req := OneDim(sample, flags);
    var lo, hi := Placed(0, Some(1.0)), Placed(1, Some(1.0));
    var edge := if HasBit(flags, LastBinClosedBit) then hi else Dropped;
    forall i | 0 <= i < 6
      ensures Place(req, i) == (if i < 2 then lo else if i < 5 then hi else edge)
    {
      OneDimPlace(sample, flags, i);
    }
  }

  /**
   The same five samples plus one exactly on the upper edge 10.0: without
   `HISTO_LAST_BIN_CLOSED` it is dropped and the buffers are as for five samples;
   with it, it joins the last bin.
   */
  lemma EdgeSample(flags: bv32)
    ensures var req := OneDim([0.0, 2.5, 5.0, 7.5, 9.99, 10.0], flags);
      && ValidRequest(req)
      && (!HasBit(flags, LastBinClosedBit) ==> Histogram(req, Zero(req)) == Histo([2, 3], [2.0, 3.0]))
      && (HasBit(flags, LastBinClosedBit) ==> Histogram(req, Zero(req)) == Histo([2, 4], [2.0, 4.0]))
  {
    var req := OneDim([0.0, 2.5, 5.0, 7.5, 9.99, 10.0], flags);
    var lo, hi := Placed(0, Some(1.0)), Placed(1, Some(1.0));
    var edge := if HasBit(flags, LastBinClosedBit) then hi else Dropped;
    EdgePlacements(flags);
    var ps := Placements(req);
    assert ps[..6] == ps;
    var z := Histo([0, 0], [0.0, 0.0]);
    assert Zero(req) == z;
    ReplayTwoThree(z, lo, hi);
    if HasBit(flags, LastBinClosedBit) {
      ReplayUnit(z, [lo, lo, hi, hi, hi], 2, 3, 2.0, 3.0, 1);
    } else {
      FitsSnoc([lo, lo, hi, hi, hi], Dropped, 2);
      ReplayLast(z, [lo, lo, hi, hi, hi], Dropped);
    }
  }
}

=== FILE: wrappers.dfy ===
/** Optional values: a coordinate that falls outside its range, a missing weight buffer. */
module Wrappers {

  datatype Option<+T> = None | Some(value: T)
}
